=== FILE: README.md ===
# Student portal core, modelled in Dafny

This project models the pieces of a student portal that compute something:

- **Grades page.** It shows three series derived from the grade records: the per-course GPA chart, the number of courses per grade and the credits per grade. It also picks a colour badge for each grade.
- **GPA projector.** It gives the average needed over the next 12 credits to reach a target GPA.
- **Two transcript exports.** One draws with jsPDF. The other writes an HTML page and escapes free text. The model covers:
  - the word wrap;
  - the course filter and the table cells;
  - the conditional GPA line;
  - the page-break test;
  - the footers;
  - the file name.
- **Backend services.** The in-memory money-record service, and the user service over the users table. The profile controller in front of the user service decides who may read or change a profile and strips the password hash.
- **Client authentication store.**

Every operation is a pure function. The backend services are state transformers: each takes the state before a call and returns a `Step` holding the state after it and either the reply or the exception raised. Anything foreign to the core is a parameter:

- the clock;
- the font width metric;
- number formatting (`toFixed`, `String(n)`);
- the grade-point table `gradeToGpa`;
- the ids the database generates.

Modules:

- `Common`: the optional value, the exceptions and `Step`.
- `Decimal`: decimal rendering of whole numbers.
- `JsObject`: a plain object as an insertion-ordered dictionary.
- `GradeAggregates`, `GpaProjector`.
- `WordWrap`, `Transcript`, `HtmlEscape`, `HtmlTranscript`.
- `MoneyService`, `UserService`, `UserController`, `AuthStore`.

Behaviour worth noting:

- A score of 0 shows "-" exactly like a missing score. The score cell tests truthiness.
- A new page starts before a semester exactly when the position is below `pageHeight - 60`. It does not wait for the block to overflow the printable height.
- A semester with no listed course gets different output in the two exports. The jsPDF export draws no table at all. The HTML export writes the table header over an empty body.

## Model

| member | source | states |
|---|---|---|
| JsObject.Lookup | FE/itpm/app/grades/page.tsx:108 | for an ordinary key (neither an array index nor an `Object.prototype` name), `o[k] \|\| 0` reads the stored value of an own key and 0 for a missing one |
| JsObject.Assign | FE/itpm/app/grades/page.tsx:108 | assigning to an existing ordinary key keeps its place in the key order; a new one goes last; the values map is updated at that key only |
| JsObject.Entries | FE/itpm/app/grades/page.tsx:110-113 | `Object.entries` lists every own key once, in key order, with its value |
| GradeAggregates.GpaChartData | FE/itpm/app/grades/page.tsx:97-103 | one chart point per record, same length and order, point i carrying record i's course code, gpa and credits |
| GradeAggregates.GpaChartDataAppend | FE/itpm/app/grades/page.tsx:97-103 | the series of a concatenation is the concatenation of the series, so each record is treated alone and in place |
| GradeAggregates.Add | FE/itpm/app/grades/page.tsx:108 | one loop iteration: the record's grade gets its old value (0 when absent) plus the record's weight, a new grade key goes last, every other key and value stays |
| GradeAggregates.Tally | FE/itpm/app/grades/page.tsx:106-109 | the forEach accumulation yields a well-formed object with no more keys than records |
| GradeAggregates.TallyKeys | FE/itpm/app/grades/page.tsx:106-109 | the keys of the accumulated object are exactly the grades that occur |
| GradeAggregates.TallyFirstSeen | FE/itpm/app/grades/page.tsx:106-110 | keys are listed in the order in which their grade is first met |
| GradeAggregates.TallyValues | FE/itpm/app/grades/page.tsx:106-109 | each key holds the sum of the weights of the records with exactly that grade |
| GradeAggregates.AddSum | FE/itpm/app/grades/page.tsx:108 | one accumulation step raises the sum of the object's values by exactly the record's weight |
| GradeAggregates.TallySum | FE/itpm/app/grades/page.tsx:106-109 | the values of the object add up to the total weight of all records |
| GradeAggregates.GradeDistribution | FE/itpm/app/grades/page.tsx:105-114 | at most one entry per record, none for empty input; every name is a grade that occurs, and its value is the number of records with that grade |
| GradeAggregates.CreditsByGrade | FE/itpm/app/grades/page.tsx:116-125 | at most one entry per record, none for empty input; every grade occurs, and its credits are the credits of the records with that grade |
| GradeAggregates.DistributionSumsToCount | FE/itpm/app/grades/page.tsx:105-114 | the counts of the distribution add up to the number of records |
| GradeAggregates.CreditsSumToTotal | FE/itpm/app/grades/page.tsx:116-125 | the credits per grade add up to the credits of all records |
| GradeAggregates.DistributionFirstSeen | FE/itpm/app/grades/page.tsx:105-114 | each occurring grade appears exactly once, compared as an exact string, in first-seen order |
| GradeAggregates.SameGradeOrder | FE/itpm/app/grades/page.tsx:105-125 | the distribution and the credits-by-grade have the same length and list the same grade at every position |
| GradeAggregates.GradeColor | FE/itpm/app/grades/page.tsx:90-95 | green exactly for A and A+, blue exactly for A- and B+, yellow exactly for B, orange for every other string |
| GpaProjector.NeededAverage | FE/itpm/lib/grades.ts:37-38 | the needed average earned over 12 credits plus the grade points already held equal the target times all credits |
| GpaProjector.NeededAverageReachesTarget | FE/itpm/lib/grades.ts:37-38 | earning the needed average over 12 credits lands the cumulative GPA exactly on the target (whenever total + 12 is not 0) |
| GpaProjector.OnlyNeededAverageReachesTarget | FE/itpm/lib/grades.ts:37-38 | no other average lands on the target |
| GpaProjector.AtTargetKeepsAverage | FE/itpm/lib/grades.ts:37-38 | a student already at the target needs the current GPA again |
| GpaProjector.NoCreditsNeedsTarget | FE/itpm/lib/grades.ts:37-38 | with no credits yet the needed average is the target |
| GpaProjector.NeededAverageIncreasesWithTarget | FE/itpm/lib/grades.ts:37-38 | a higher target strictly needs a higher average when total > -12 |
| GpaProjector.NeededAverageDecreasesWithCurrent | FE/itpm/lib/grades.ts:37-38 | a higher current GPA strictly needs a lower average when total > 0 |
| GpaProjector.DefaultPrediction | FE/itpm/lib/grades.ts:37-38 | 3.75 over 18 credits aiming at 3.9 needs 4.125, above the 4-point scale |
| GpaProjector.PredictMessage | FE/itpm/lib/grades.ts:40 | the message is the fixed prefix, the two-decimal average, the fixed middle naming the 12-credit horizon, the target written unchanged and a full stop, each at its exact position |
| WordWrap.SplitSpaces | FE/itpm/lib/pdf-export.ts:23 | `split(' ')` yields at least one piece and no piece holds a space |
| WordWrap.JoinSplitSpaces | FE/itpm/lib/pdf-export.ts:23 | joining the pieces with single spaces gives the text back |
| WordWrap.Wrap | FE/itpm/lib/pdf-export.ts:24-41 | the loop only appends lines: the result begins with the lines already emitted |
| WordWrap.WrapLinesOk | FE/itpm/lib/pdf-export.ts:27-41 | every line the loop emits fits the width or is a single word |
| WordWrap.WrapCount | FE/itpm/lib/pdf-export.ts:27-41 | the loop emits at most one line per word plus the pending one |
| WordWrap.ExtendPendingJoin | FE/itpm/lib/pdf-export.ts:28-36 | appending a word to the pending line with one space leaves the space-joined text unchanged |
| WordWrap.WrapBreaks | FE/itpm/lib/pdf-export.ts:27-41 | with non-empty, space-free words, every break is forced: each emitted line followed by a space and the next line's first word is wider than the limit |
| WordWrap.JoinsFitExtend | FE/itpm/lib/pdf-export.ts:28-35 | appending a word whose joined line fits keeps every word-by-word prefix of the line within the limit |
| WordWrap.WrapJoinsFit | FE/itpm/lib/pdf-export.ts:27-41 | every join is allowed: each prefix of two or more words of an emitted line is within the limit |
| WordWrap.WrapJoin | FE/itpm/lib/pdf-export.ts:27-41 | with no empty word, joining the emitted lines with spaces gives the words joined with spaces |
| WordWrap.SplitText | FE/itpm/lib/pdf-export.ts:21-44 | never empty, `['']` for empty text, every line fits or is one word, at most max(1, words) lines, every join within the limit, and, when no piece is empty, the lines rejoin to the text and every break is forced by overflow, so the wrap is the greedy one |
| WordWrap.EffectiveMaxWidth | FE/itpm/lib/pdf-export.ts:57 | the given maximum width when truthy, the page width less x less 10 otherwise |
| WordWrap.AddTextLineCount | FE/itpm/lib/pdf-export.ts:49-72 | 1 for empty text and when the width metric throws, otherwise the number of wrapped lines, always between 1 and max(1, words) |
| Transcript.OrNA | FE/itpm/lib/pdf-export.ts:131 | `value \|\| 'N/A'` is never empty and keeps a non-empty value |
| Transcript.PdfStudentInfo | FE/itpm/lib/pdf-export.ts:117-131 | six rows with the fixed labels in order, each value the field or "N/A" when the field is empty |
| Transcript.PdfSummary | FE/itpm/lib/pdf-export.ts:149-157 | the CGPA to two decimals, the classification unchanged, the credit total, and a digit string whose value is the number of courses |
| Transcript.ListedCourses | FE/itpm/lib/pdf-export.ts:199 | a course is kept if and only if its grade is non-empty and not "NA", and no more courses come out than went in |
| Transcript.ListedCoursesAppend | FE/itpm/lib/pdf-export.ts:199 | the filter commutes with concatenation, so the kept courses stay in input order |
| Transcript.ScoreCell | FE/itpm/lib/pdf-export.ts:208 | "-" for a missing or zero score, the one-decimal score otherwise |
| Transcript.PdfRow | FE/itpm/lib/pdf-export.ts:202-211 | the six cells of a course: code, name, credits, "-" or the one-decimal score, the grade and its one-decimal point value |
| Transcript.PdfTableBody | FE/itpm/lib/pdf-export.ts:199-212 | no table exactly when no course is kept; otherwise one six-cell row per kept course, in order, whose last cell is the grade's point value |
| Transcript.PdfGpaLine | FE/itpm/lib/pdf-export.ts:185-196 | the line is written if and only if one of the two GPAs is defined, and each part if and only if its own GPA is |
| Transcript.StartSemester | FE/itpm/lib/pdf-export.ts:164-167 | a new page, at the top margin, if and only if the position is below pageHeight - 60; otherwise nothing changes |
| Transcript.HeaderLines | FE/itpm/lib/pdf-export.ts:177 | the semester label takes one line when empty or when the metric throws, and otherwise as many lines as it wraps to at a width of 170 |
| Transcript.TableStart | FE/itpm/lib/pdf-export.ts:176-215 | the table starts 3 + 5 per wrapped label line, plus 5 with a GPA line, below the semester's start, so at least 8 below it |
| Transcript.LayoutSemester | FE/itpm/lib/pdf-export.ts:162-257 | after a semester with a table the position is 5 below the table; without one it is exactly 8 + 5 per label line + 5 with a GPA line below the start, on the same page |
| Transcript.Footers | FE/itpm/lib/pdf-export.ts:260-281 | one footer per page 1..n, reading "Page i of n" and the date of the clock reading taken for that page |
| Transcript.FooterLabelsDistinct | FE/itpm/lib/pdf-export.ts:266 | two pages never carry the same "Page i of n" label |
| Transcript.DatePart | FE/itpm/lib/pdf-export.ts:285 | `split('T')[0]` is the longest prefix holding no 'T' |
| Transcript.DatePartOfIso | FE/itpm/lib/pdf-export.ts:285 | for an ISO-8601 instant the date part is its first ten characters |
| Transcript.TranscriptFilename | FE/itpm/lib/pdf-export.ts:284-285 | the name is "Transcript_", the student id as the template writes it ("undefined" when missing), "_", the date part and ".pdf" |
| Transcript.MissingIdFilename | FE/itpm/lib/pdf-export.ts:284-285 | without a student id the name is "Transcript_undefined_" followed by the ISO date and ".pdf" |
| Transcript.FilenameDeterminesDate | FE/itpm/lib/pdf-export.ts:285 | for one student, equal file names mean equal generation dates |
| HtmlEscape.EscapeChar | FE/itpm/lib/pdf-export-html.ts:227-229 | `&` becomes `&amp;`, U+00A0 `&nbsp;`, `<` `&lt;` and `>` `&gt;`; every other character is copied unchanged; no output holds a raw `<`, `>` or U+00A0 |
| HtmlEscape.UnescapeStep | FE/itpm/lib/pdf-export-html.ts:227-229 | the decoder reads one escaped character back whatever text follows it, so the four references cannot run into their successor |
| HtmlEscape.EscapeText | FE/itpm/lib/pdf-export-html.ts:227-229 | the escaped text holds no raw `<`, `>` or U+00A0 and is never shorter than the input |
| HtmlEscape.EscapeHtml | FE/itpm/lib/pdf-export-html.ts:225-230 | "N/A" for empty text, the escaped text otherwise |
| HtmlEscape.UnescapeEscape | FE/itpm/lib/pdf-export-html.ts:227-229 | decoding the four character references gives the original text back |
| HtmlEscape.EscapeHtmlRoundTrip | FE/itpm/lib/pdf-export-html.ts:225-230 | decoding the escape of a non-empty text gives it back |
| HtmlEscape.EscapeTextAppend | FE/itpm/lib/pdf-export-html.ts:227-229 | escaping works character by character: it commutes with concatenation |
| HtmlEscape.EscapeTextPlain | FE/itpm/lib/pdf-export-html.ts:227-229 | a text with no special character is left as it is |
| HtmlTranscript.HtmlStudentInfo | FE/itpm/lib/pdf-export-html.ts:122-134 | six rows with the fixed labels in order, each value the escape of its field |
| HtmlTranscript.StudentInfoAgrees | FE/itpm/lib/pdf-export-html.ts:122-134 | decoding each HTML value gives the value the jsPDF export writes |
| HtmlTranscript.HtmlSummary | FE/itpm/lib/pdf-export-html.ts:140-148 | the CGPA to two decimals, the classification written without escaping, the credit total, and a digit string whose value is the number of courses |
| HtmlTranscript.SummaryAgrees | FE/itpm/lib/pdf-export-html.ts:140-148 | the HTML summary equals the jsPDF one, character for character |
| HtmlTranscript.HtmlRow | FE/itpm/lib/pdf-export-html.ts:176-183 | six cells per course row: escaped code and name, the credits, "-" or the one-decimal score, the grade as written, and the one-decimal point value of the grade |
| HtmlTranscript.HtmlGpaBlock | FE/itpm/lib/pdf-export-html.ts:155-160 | the block is written if and only if one of the two GPAs is defined, each part if and only if its own GPA is |
| HtmlTranscript.GpaBlockAgrees | FE/itpm/lib/pdf-export-html.ts:155-160 | the HTML GPA block is written exactly when the jsPDF GPA line is, and with the same parts |
| HtmlTranscript.HtmlSection | FE/itpm/lib/pdf-export-html.ts:152-188 | escaped header, the GPA block with its parts exactly as `HtmlGpaBlock` writes them, one row per kept course with escaped code and name, "-" for a falsy score, the grade unescaped |
| HtmlTranscript.RowsMatchPdf | FE/itpm/lib/pdf-export-html.ts:173-184 | both exports list the same courses in the same order; the cells agree except that code and name are escaped in HTML |
| HtmlTranscript.NaOnlySemester | FE/itpm/lib/pdf-export-html.ts:152-188 | a semester whose only course is graded "NA" keeps its header and GPA block over an empty table; the jsPDF export draws no table for it |
| HtmlTranscript.HtmlExportOptions | FE/itpm/lib/pdf-export-html.ts:203-205 | 10 mm margins all round and the same file name as the jsPDF export |
| MoneyService.Seed | BE/src/money/money.service.ts:10-28 | exactly two records, ids "m1" and "m2", both created now and never updated |
| MoneyService.Create | BE/src/money/money.service.ts:31-42 | exactly one record is appended, built from the request, with id "m" and the millisecond clock; the existing records are unchanged |
| MoneyService.FindAll | BE/src/money/money.service.ts:44-46 | the stored list, in stored order |
| MoneyService.FindIndex | BE/src/money/money.service.ts:57 | the first index holding the id, or none when no record has it |
| MoneyService.FindOne | BE/src/money/money.service.ts:48-54 | NotFound with the item message exactly when no record has the id; otherwise the first record with it |
| MoneyService.Merge | BE/src/money/money.service.ts:62-66 | fields present in the request override, id and creation time are kept, updatedAt is now; an empty request changes nothing but updatedAt |
| MoneyService.Update | BE/src/money/money.service.ts:56-71 | NotFound and no change for a missing id; otherwise only the first match is replaced, fields present in the request override, the rest keep their values, updatedAt is set |
| MoneyService.Remove | BE/src/money/money.service.ts:73-80 | NotFound and no change for a missing id; otherwise exactly the first match is removed, the rest keep their order, and success is true |
| MoneyService.FindIndexIsFirst | BE/src/money/money.service.ts:57 | the first index holding the id is the one found |
| MoneyService.CreateThenFindOne | BE/src/money/money.service.ts:31-54 | a record created under a fresh id is found by that id |
| MoneyService.CreateThenRemove | BE/src/money/money.service.ts:31-80 | removing a record just created under a fresh id restores the list |
| MoneyService.UpdateThenFindOne | BE/src/money/money.service.ts:48-71 | after an update, finding the id returns the updated record |
| MoneyService.SameMillisecondShadows | BE/src/money/money.service.ts:31-54 | two records created in the same millisecond share an id, and lookups by it only reach the first |
| UserService.MapToEntity | BE/src/user/user.service.ts:77-91 | every stored field is copied, and emailAlerts moves under preferences |
| UserService.MapToEntityBijective | BE/src/user/user.service.ts:77-91 | mapping to the entity loses and invents nothing: it has a two-sided inverse |
| UserService.FindById | BE/src/user/user.service.ts:39-44 | undefined exactly when no row has the id; otherwise the entity of that row |
| UserService.FindByEmail | BE/src/user/user.service.ts:10-15 | undefined exactly when no row has the e-mail; otherwise the entity of the row holding it |
| UserService.FindByStudentId | BE/src/user/user.service.ts:17-22 | undefined exactly when no row has the student id; otherwise the entity of the row holding it |
| UserService.NewRow | BE/src/user/user.service.ts:31-33 | role "student" when missing or empty, verified only when given as true, emailAlerts true when missing |
| UserService.Create | BE/src/user/user.service.ts:24-37 | succeeds exactly when id, e-mail and student id are all unused, adding one row under the new id whose fields are the request's with the role, verified and emailAlerts defaults; otherwise the table is unchanged |
| UserService.Update | BE/src/user/user.service.ts:46-75 | NotFound for an unknown id and Conflict for a taken new e-mail, both leaving the table unchanged; otherwise only the user's row changes, email and fullName only when truthy, emailAlerts whenever defined, the other fields never |
| UserService.OwnEmailNoConflict | BE/src/user/user.service.ts:56 | re-submitting the user's own e-mail is never a conflict |
| UserService.UpdatePreservesValid | BE/src/user/user.service.ts:55-72 | an update keeps e-mails and student ids unique |
| UserService.CreatePreservesValid | BE/src/user/user.service.ts:24-37 | a create keeps ids, e-mails and student ids unique |
| UserService.CreateThenFind | BE/src/user/user.service.ts:10-44 | a created user is found by id, by e-mail and by student id |
| UserService.UpdateThenFindById | BE/src/user/user.service.ts:39-75 | the reply of an update is what finding the id returns afterwards |
| UserController.StripOnlyPassword | BE/src/user/user.controller.ts:35 | stripping drops the password hash and nothing else |
| UserController.WithoutPassword | BE/src/user/user.controller.ts:35 | the public user is the entity without its hash: putting the hash back gives the entity |
| UserController.GetProfile | BE/src/user/user.controller.ts:23-41 | Forbidden unless the token's subject is the id, then NotFound for an unknown user; otherwise success with the entity minus its password hash |
| UserController.UpdateProfile | BE/src/user/user.controller.ts:43-59 | Forbidden with the table untouched unless the token's subject is the id; otherwise the service's update and its exception, and on success the updated entity minus its password hash |
| UserController.UpdateThenGet | BE/src/user/user.controller.ts:23-59 | after a successful profile update, reading the profile returns the same response |
| UserController.OtherSubjectRefused | BE/src/user/user.controller.ts:26-50 | a token for another subject is refused by both endpoints, and the table is untouched |
| AuthStore.Initial | FE/itpm/lib/store.ts:19-20 | no user, not authenticated, consistent |
| AuthStore.Login | FE/itpm/lib/store.ts:21 | the given user, authenticated, consistent, whatever the prior state |
| AuthStore.Logout | FE/itpm/lib/store.ts:22 | back to the initial state, whatever the prior state |
| AuthStore.ActionsForgetHistory | FE/itpm/lib/store.ts:21-22 | neither action depends on the prior state; both are idempotent |
| AuthStore.Run | FE/itpm/lib/store.ts:18-23 | every run of actions from a consistent state keeps isAuthenticated true exactly when a user is set, and ends authenticated exactly when the last action is a login |
| AuthStore.RunIsLastAction | FE/itpm/lib/store.ts:21-22 | after a run the user is the one the last action set |

## Left out

- UserController.Authorized: the guard condition `!payload || payload.sub !== id` (user.controller.ts lines 26 and 48) is a predicate with no contract of its own; what it decides is stated by `GetProfile`, `UpdateProfile` and `OtherSubjectRefused`.

- Drawing: fonts, colours, the header band, autoTable's own row pagination and `lastAutoTable.finalY`. `LayoutSemester` takes the table's added pages and end position as a parameter.
- The student-information block advances by six units per wrapped line. Its vertical layout is not modelled; its values are.
- Strings are sequences of Unicode scalar values. A JavaScript string holding an unpaired UTF-16 surrogate, which `split(' ')`, `getTextWidth`, `textContent` and `innerHTML` all accept, cannot be written in this model.
- Number formatting (`toFixed`, `String(n)`, `toLocaleDateString`) and IEEE-754 behaviour, NaN included. Numbers are `real`, and formatting is a parameter.
- `gradeToGpa` and the `ProcessedGradesData` shape are not part of this model. The first is a parameter and the second is a datatype with the fields the exports read.
- The DOM and html2pdf: the temporary element, the style sheet and the template whitespace. The HTML model keeps which values appear and whether they are escaped.
- Clocks (`new Date()`, `Date.now()`, `toISOString()`) are parameters.
- The font width metric is an arbitrary function. Its throwing is a boolean parameter.
- GradeAggregates.GradeDistribution: requires every grade to be an ordinary key, i.e. neither a canonical array index nor an `Object.prototype` name. For such keys JavaScript reorders the entries or reads an inherited value.
- GradeAggregates.CreditsByGrade: the same ordinary-key requirement.
- UserService.FindByEmail: requires a valid table (unique e-mails), which the database's unique index guarantees. The same holds for `UserService.FindByStudentId`.
- UserService.Create: the database's unique-constraint error is modelled as a failure without a handler. When several unique columns collide, the field reported (id first, then e-mail, then student id) is a choice; the database does not fix it.
- The gap between the separate reads and the write in `update`: two requests can interleave there. Concurrency is not modelled.
- A request key present with the value `undefined` is treated as absent. This affects the money update and the user update.
- UserService.Update: a JSON `null` for a key is not modelled; the request types only know absent and present. In the source, `null` for `email` or `fullName` is falsy and skipped like an absent key. `null` for `emailAlerts` passes the `!== undefined` test, so the write is sent to the database with `emailAlerts: null`; what the database then does depends on its schema, which is not part of this model.
- MoneyService.Merge: a JSON `null` for a key is not modelled. The spread `...updateDto` copies it into the record, so the stored name, amount or description becomes `null`, whereas the model keeps the old value.
- The database, the JWT guard and the DTO validators. The guard's outcome is the payload parameter; the DTO is a record of three optional fields.
- Task endpoints, the profile page, the mock login functions, `analyzeGrades` and the timers around the projector: these are pass-throughs, UI or mocks.

=== FILE: auth_store.dfy ===
/** The client-side authentication store: the signed-in user, if any, and a
    flag saying whether someone is signed in. Each action replaces both
    fields at once. */
module AuthStore {
  import opened Common

  datatype User = User(id: string, studentId: string, name: string, email: string, gpa: real)

  datatype AuthState = AuthState(user: Option<User>, isAuthenticated: bool)

  /** The flag tells the truth about the user field. */
  predicate Consistent(s: AuthState) {
    s.isAuthenticated <==> s.user.Some?
  }

  /** The state the store is created with. */
  function Initial(): (s: AuthState)
    ensures Consistent(s) && !s.isAuthenticated
  {
    AuthState(None, false)
  }

  /** `login(user)`. */
  function Login(s: AuthState, u: User): (r: AuthState)
    ensures Consistent(r) && r.isAuthenticated
    ensures r.user == Some(u)
  {
    AuthState(Some(u), true)
  }

  /** `logout()`. */
  function Logout(s: AuthState): (r: AuthState)
    ensures Consistent(r) && !r.isAuthenticated
    ensures r == Initial()
  {
    AuthState(None, false)
  }

  /** Neither action depends on the state it is applied to, so repeating one
      changes nothing and the last action alone decides the state. */
  lemma ActionsForgetHistory(s: AuthState, t: AuthState, u: User)
    ensures Login(s, u) == Login(t, u)
    ensures Logout(s) == Logout(t)
    ensures Login(Login(s, u), u) == Login(s, u)
    ensures Logout(Logout(s)) == Logout(s)
  {
  }

  /** Every state reachable from the initial one by a run of actions is
      consistent; `None` in a run stands for a logout. */
  function Run(s: AuthState, actions: seq<Option<User>>): (r: AuthState)
    requires Consistent(s)
    ensures Consistent(r)
    ensures |actions| > 0 ==> (r.isAuthenticated <==> actions[|actions| - 1].Some?)
    decreases |actions|
  {
    if |actions| == 0 then s
    else
      var next := match actions[0] case None => Logout(s) case Some(u) => Login(s, u);
      Run(next, actions[1..])
  }

  /** The store after a run is the store after its last action alone. */
  lemma {:induction false} RunIsLastAction(s: AuthState, actions: seq<Option<User>>)
    requires Consistent(s) && |actions| > 0
    ensures Run(s, actions).user == actions[|actions| - 1]
    decreases |actions|
  {
    if |actions| > 1 {
      var next := match actions[0] case None => Logout(s) case Some(u) => Login(s, u);
      RunIsLastAction(next, actions[1..]);
    }
  }
}

=== FILE: common.dfy ===
/** Datatypes shared by the services: the optional value
    that stands for TypeScript's `T | undefined`, the exceptions the NestJS
    handlers raise, and the outcome of a state-transforming service call. */
module Common {

  /** `None` models `undefined`; `Some(v)` a present value. */
  datatype Option<+T> = None | Some(value: T) {
    function GetOr(default: T): T {
      match this
      case Some(v) => v
      case None => default
    }
  }

  /** The exceptions thrown by the backend: NestJS HTTP exceptions, plus the
      unique-constraint error the database raises on its own. */
  datatype Error =
    | NotFound(message: string)
    | Conflict(message: string)
    | Forbidden(message: string)
    | UniqueViolation(field: string)

  datatype Result<+T> = Success(value: T) | Failure(error: Error)

  /** The state after a service call together with what the call returned
      (or threw). A service that throws leaves its state as it found it. */
  datatype Step<S, T> = Step(state: S, reply: Result<T>)
}

=== FILE: decimal.dfy ===
/** Decimal rendering of whole numbers, as JavaScript's `String(n)` writes a
    non-negative integer: digits with no leading zero. Used for the money ids
    (`m${Date.now()}`), the transcript footer and canonical array indices. */
module Decimal {

  predicate IsDigit(c: char) {
    '0' <= c <= '9'
  }

  predicate AllDigits(s: string) {
    forall i :: 0 <= i < |s| ==> IsDigit(s[i])
  }

  function DigitChar(d: nat): (c: char)
    requires d < 10
    ensures IsDigit(c)
    ensures c as int - '0' as int == d
  {
    ('0' as int + d) as char
  }

  /** The decimal digits of `n`. */
  function NatToString(n: nat): (s: string)
    ensures |s| >= 1
    ensures AllDigits(s)
    ensures |s| > 1 ==> s[0] != '0'
    ensures n < 10 <==> |s| == 1
    decreases n
  {
    if n < 10 then [DigitChar(n)] else NatToString(n / 10) + [DigitChar(n % 10)]
  }

  /** The number a string of decimal digits denotes (leading zeros allowed). */
  function DigitsValue(s: string): nat
    requires AllDigits(s)
    decreases |s|
  {
    if |s| == 0 then 0
    else DigitsValue(s[..|s| - 1]) * 10 + (s[|s| - 1] as int - '0' as int)
  }

  /** Reading the digits back gives the number that was written. */
  lemma {:induction false} DigitsValueOfNatToString(n: nat)
    ensures DigitsValue(NatToString(n)) == n
    decreases n
  {
    if n >= 10 {
      var s := NatToString(n);
      assert s[..|s| - 1] == NatToString(n / 10);
      DigitsValueOfNatToString(n / 10);
    }
  }

  /** Different numbers are written differently. */
  lemma NatToStringInjective(m: nat, n: nat)
    requires NatToString(m) == NatToString(n)
    ensures m == n
  {
    DigitsValueOfNatToString(m);
    DigitsValueOfNatToString(n);
  }
}

=== FILE: gpa_projector.dfy ===
/** The GPA projector of the grades page: the average grade needed over the
    next block of 12 credits for the cumulative GPA to reach a target. */
module GpaProjector {

  /** The fixed horizon of upcoming credits. */
  const UpcomingCredits: real := 12.0

  datatype GradePredictor = GradePredictor(currentGpa: real, totalCredits: real, targetGpa: real)

  /** The closed-form average. No input is rejected and nothing is clamped:
      a result above 4 means the target is out of reach in 12 credits, a
      negative one that it is already exceeded. */
  function NeededAverage(p: GradePredictor): (average: real)
    ensures average * UpcomingCredits + p.currentGpa * p.totalCredits == p.targetGpa * (p.totalCredits + UpcomingCredits)
  {
    (p.targetGpa * (p.totalCredits + UpcomingCredits) - p.currentGpa * p.totalCredits) / UpcomingCredits
  }

  /** The cumulative GPA after earning `average` over the next 12 credits. */
  function CumulativeAfter(currentGpa: real, totalCredits: real, average: real): real
    requires totalCredits + UpcomingCredits != 0.0
  {
    (currentGpa * totalCredits + average * UpcomingCredits) / (totalCredits + UpcomingCredits)
  }

  /** Earning exactly the needed average lands on the target. */
  lemma NeededAverageReachesTarget(p: GradePredictor)
    requires p.totalCredits + UpcomingCredits != 0.0
    ensures CumulativeAfter(p.currentGpa, p.totalCredits, NeededAverage(p)) == p.targetGpa
  {
    var n := p.totalCredits + UpcomingCredits;
    calc {
      p.currentGpa * p.totalCredits + NeededAverage(p) * UpcomingCredits;
      p.currentGpa * p.totalCredits + (p.targetGpa * n - p.currentGpa * p.totalCredits);
      p.targetGpa * n;
    }
  }

  /** The needed average is the only one that lands on the target. */
  lemma OnlyNeededAverageReachesTarget(p: GradePredictor, average: real)
    requires p.totalCredits + UpcomingCredits != 0.0
    requires CumulativeAfter(p.currentGpa, p.totalCredits, average) == p.targetGpa
    ensures average == NeededAverage(p)
  {
    var n := p.totalCredits + UpcomingCredits;
    assert p.currentGpa * p.totalCredits + average * UpcomingCredits == p.targetGpa * n;
  }

  /** A student already at the target needs to keep the same average. */
  lemma AtTargetKeepsAverage(p: GradePredictor)
    requires p.targetGpa == p.currentGpa
    ensures NeededAverage(p) == p.currentGpa
  {
  }

  /** With no credits yet, the needed average is the target itself. */
  lemma NoCreditsNeedsTarget(p: GradePredictor)
    requires p.totalCredits == 0.0
    ensures NeededAverage(p) == p.targetGpa
  {
  }

  /** A higher target needs a higher average (whenever the horizon carries
      positive weight, i.e. the total after 12 more credits is positive). */
  lemma NeededAverageIncreasesWithTarget(p: GradePredictor, q: GradePredictor)
    requires p.currentGpa == q.currentGpa && p.totalCredits == q.totalCredits
    requires p.totalCredits > -UpcomingCredits
    requires p.targetGpa < q.targetGpa
    ensures NeededAverage(p) < NeededAverage(q)
  {
    var n := p.totalCredits + UpcomingCredits;
    var c := p.currentGpa * p.totalCredits;
    assert p.targetGpa * n < q.targetGpa * n;
    var x, y := p.targetGpa * n - c, q.targetGpa * n - c;
    assert x < y;
    assert NeededAverage(p) == x / UpcomingCredits && NeededAverage(q) == y / UpcomingCredits;
  }

  /** A higher current GPA over a positive number of credits needs a lower
      average. */
  lemma NeededAverageDecreasesWithCurrent(p: GradePredictor, q: GradePredictor)
    requires p.targetGpa == q.targetGpa && p.totalCredits == q.totalCredits
    requires p.totalCredits > 0.0
    requires p.currentGpa < q.currentGpa
    ensures NeededAverage(q) < NeededAverage(p)
  {
    assert p.currentGpa * p.totalCredits < q.currentGpa * p.totalCredits;
  }

  /** The default inputs of the page (3.75 over 18 credits, aiming at 3.9)
      need 4.125: out of reach. */
  lemma DefaultPrediction()
    ensures NeededAverage(GradePredictor(3.75, 18.0, 3.9)) == 4.125
  {
  }

  /** The message shown to the student; `toFixed2` stands for
      `Number.prototype.toFixed(2)` and `show` for `String(n)`. */
  function PredictMessage(p: GradePredictor, toFixed2: real -> string, show: real -> string): (m: string)
    ensures |m| > |show(p.targetGpa)|
    ensures m[|m| - |show(p.targetGpa)| - 1 .. |m| - 1] == show(p.targetGpa)
    ensures m[|m| - 1] == '.'
    ensures MessagePrefix <= m
    ensures |m| > |MessagePrefix| + |toFixed2(NeededAverage(p))|
    ensures m[|MessagePrefix| .. |MessagePrefix| + |toFixed2(NeededAverage(p))|] == toFixed2(NeededAverage(p))
    ensures |m| == |MessagePrefix| + |toFixed2(NeededAverage(p))| + |MessageMiddle| + |show(p.targetGpa)| + 1
    ensures m[|MessagePrefix| + |toFixed2(NeededAverage(p))| .. |m| - |show(p.targetGpa)| - 1] == MessageMiddle
  {
    MessagePrefix + toFixed2(NeededAverage(p)) + MessageMiddle + show(p.targetGpa) + "."
  }

  const MessagePrefix := "You need to achieve an average of "

  /** The text between the average and the target; it names the same
      12-credit horizon as `UpcomingCredits`. */
  const MessageMiddle := " in your next 12 credits to reach your target GPA of "
}

=== FILE: grade_aggregates.dfy ===
/** The grade page's derived series: the per-course chart data, the number
    of courses per grade, the credits per grade, and the colour badge of a
    grade. Both groupings fill a plain object record by record and read it
    back with `Object.entries`. */
module GradeAggregates {
  import opened JsObject

  datatype GradeRecord = GradeRecord(
    id: string,
    courseCode: string,
    courseName: string,
    credits: real,
    grade: string,
    gpa: real)

  /** One bar of the per-course chart. */
  datatype ChartPoint = ChartPoint(name: string, gpa: real, credits: real)

  /** One slice of the grade distribution: a grade and how many records have it. */
  datatype GradeSlice = GradeSlice(name: string, value: real)

  /** A grade and the credits of all records that have it. */
  datatype GradeCredits = GradeCredits(grade: string, credits: real)

  /** The grade strings of the records, in order. */
  function GradesOf(grades: seq<GradeRecord>): (s: seq<string>)
    ensures |s| == |grades|
    ensures forall i :: 0 <= i < |grades| ==> s[i] == grades[i].grade
  {
    seq(|grades|, i requires 0 <= i < |grades| => grades[i].grade)
  }

  /** Every grade is an ordinary property key, so the groupings list their
      keys in creation order. */
  predicate AllOrdinary(grades: seq<GradeRecord>) {
    forall i :: 0 <= i < |grades| ==> OrdinaryKey(grades[i].grade)
  }

  /* ---------------------------------------------------------------- chart */

  /** `grades.map(g => ({ name: g.courseCode, gpa: g.gpa, credits: g.credits }))` */
  function GpaChartData(grades: seq<GradeRecord>): (r: seq<ChartPoint>)
    ensures |r| == |grades|
    ensures forall i :: 0 <= i < |grades| ==>
      r[i].name == grades[i].courseCode && r[i].gpa == grades[i].gpa && r[i].credits == grades[i].credits
  {
    seq(|grades|, i requires 0 <= i < |grades| =>
      ChartPoint(grades[i].courseCode, grades[i].gpa, grades[i].credits))
  }

  /** The chart series of a concatenation is the concatenation of the series:
      the series keeps the records' order and treats each record alone. */
  lemma GpaChartDataAppend(a: seq<GradeRecord>, b: seq<GradeRecord>)
    ensures GpaChartData(a + b) == GpaChartData(a) + GpaChartData(b)
  {
    assert |GpaChartData(a + b)| == |GpaChartData(a) + GpaChartData(b)|;
    forall i | 0 <= i < |a + b|
      ensures GpaChartData(a + b)[i] == (GpaChartData(a) + GpaChartData(b))[i]
    {
      if i < |a| {
        assert (a + b)[i] == a[i];
      } else {
        assert (a + b)[i] == b[i - |a|];
      }
    }
  }

  /* ------------------------------------------------------------ groupings */

  /** What a grouping adds up: 1 per record for the distribution, the
      record's credits for the credits by grade. */
  datatype Measure = Count | Credits

  function Weight(m: Measure, g: GradeRecord): real {
    match m
    case Count => 1.0
    case Credits => g.credits
  }

  /** One iteration of the loop body: `o[g.grade] = (o[g.grade] || 0) + w`,
      where `w` is the record's weight under `m`. */
  function Add(o: Object<real>, g: GradeRecord, m: Measure): (r: Object<real>)
    requires Valid(o) && OrdinaryKey(g.grade)
    ensures Valid(r)
    ensures g.grade in o.props ==> r.order == o.order
    ensures g.grade !in o.props ==> r.order == o.order + [g.grade]
    ensures g.grade in r.props
    ensures r.props[g.grade] == (if g.grade in o.props then o.props[g.grade] else 0.0) + Weight(m, g)
    ensures forall k :: k != g.grade ==> (k in r.props <==> k in o.props)
    ensures forall k :: k != g.grade && k in o.props ==> r.props[k] == o.props[k]
  {
    Assign(o, g.grade, Lookup(o, g.grade) + Weight(m, g))
  }

  /** The object after `grades.forEach(...)` with that body, starting from `{}`. */
  function Tally(grades: seq<GradeRecord>, m: Measure): (o: Object<real>)
    requires AllOrdinary(grades)
    ensures Valid(o)
    ensures |o.order| <= |grades|
    decreases |grades|
  {
    if |grades| == 0 then Empty()
    else Add(Tally(grades[..|grades| - 1], m), grades[|grades| - 1], m)
  }

  /** `getGradeDistribution`: grade and count, one entry per distinct grade. */
  function GradeDistribution(grades: seq<GradeRecord>): (r: seq<GradeSlice>)
    requires AllOrdinary(grades)
    ensures |r| <= |grades|
    ensures |grades| == 0 ==> r == []
    ensures forall i :: 0 <= i < |r| ==> r[i].name in GradesOf(grades)
    ensures forall i :: 0 <= i < |r| ==> r[i].value == multiset(GradesOf(grades))[r[i].name] as real
  {
    var o := Tally(grades, Count);
    var e := Entries(o);
    TallyKeys(grades, Count);
    TallyCounts(grades);
    seq(|e|, i requires 0 <= i < |e| => GradeSlice(e[i].0, e[i].1))
  }

  /** `getCreditsByGrade`: grade and summed credits, one entry per distinct grade. */
  function CreditsByGrade(grades: seq<GradeRecord>): (r: seq<GradeCredits>)
    requires AllOrdinary(grades)
    ensures |r| <= |grades|
    ensures |grades| == 0 ==> r == []
    ensures forall i :: 0 <= i < |r| ==> r[i].grade in GradesOf(grades)
    ensures forall i :: 0 <= i < |r| ==> r[i].credits == CreditsWithGrade(grades, r[i].grade)
  {
    var o := Tally(grades, Credits);
    var e := Entries(o);
    TallyKeys(grades, Credits);
    TallyCredits(grades);
    seq(|e|, i requires 0 <= i < |e| => GradeCredits(e[i].0, e[i].1))
  }

  function SliceNames(r: seq<GradeSlice>): (s: seq<string>)
    ensures |s| == |r|
    ensures forall i :: 0 <= i < |r| ==> s[i] == r[i].name
  {
    seq(|r|, i requires 0 <= i < |r| => r[i].name)
  }

  function SumSlices(r: seq<GradeSlice>): real
    decreases |r|
  {
    if |r| == 0 then 0.0 else SumSlices(r[..|r| - 1]) + r[|r| - 1].value
  }

  function SumCredits(r: seq<GradeCredits>): real
    decreases |r|
  {
    if |r| == 0 then 0.0 else SumCredits(r[..|r| - 1]) + r[|r| - 1].credits
  }

  /* ------------------------------------------------ reference definitions */

  /** The credits of the records whose grade is exactly `k`. */
  function CreditsWithGrade(grades: seq<GradeRecord>, k: string): real
    decreases |grades|
  {
    WeightWithGrade(grades, Credits, k)
  }

  /** The total weight of the records whose grade is exactly `k`. */
  function WeightWithGrade(grades: seq<GradeRecord>, m: Measure, k: string): real
    decreases |grades|
  {
    if |grades| == 0 then 0.0
    else
      WeightWithGrade(grades[..|grades| - 1], m, k)
      + (if grades[|grades| - 1].grade == k then Weight(m, grades[|grades| - 1]) else 0.0)
  }

  /** The total weight of all records. */
  function TotalWeight(grades: seq<GradeRecord>, m: Measure): real
    decreases |grades|
  {
    if |grades| == 0 then 0.0 else TotalWeight(grades[..|grades| - 1], m) + Weight(m, grades[|grades| - 1])
  }

  function TotalCredits(grades: seq<GradeRecord>): real {
    TotalWeight(grades, Credits)
  }

  /** The position of the first record with grade `k`. */
  function FirstIndex(xs: seq<string>, k: string): (i: nat)
    requires k in xs
    ensures i < |xs| && xs[i] == k && k !in xs[..i]
  {
    if xs[0] == k then 0
    else
      assert k in xs[1..];
      var j := FirstIndex(xs[1..], k);
      assert xs[..j + 1] == [xs[0]] + xs[1..][..j];
      j + 1
  }

  /* -------------------------------------------------------------- proofs */

  lemma FirstIndexUnique(xs: seq<string>, k: string, i: nat)
    requires i < |xs| && xs[i] == k && k !in xs[..i]
    ensures FirstIndex(xs, k) == i
  {
    var f := FirstIndex(xs, k);
    assert xs[f] == k;
  }

  lemma FirstIndexExtend(xs: seq<string>, y: string, k: string)
    requires k in xs
    ensures k in xs + [y]
    ensures FirstIndex(xs + [y], k) == FirstIndex(xs, k)
  {
    var f := FirstIndex(xs, k);
    assert (xs + [y])[..f] == xs[..f];
    FirstIndexUnique(xs + [y], k, f);
  }

  lemma FirstIndexNew(xs: seq<string>, k: string)
    requires k !in xs
    ensures FirstIndex(xs + [k], k) == |xs|
  {
    assert (xs + [k])[..|xs|] == xs;
    FirstIndexUnique(xs + [k], k, |xs|);
  }

  lemma GradesOfPrefix(grades: seq<GradeRecord>)
    requires |grades| > 0
    ensures GradesOf(grades) == GradesOf(grades[..|grades| - 1]) + [grades[|grades| - 1].grade]
  {
  }

  /** The keys of the tally are exactly the grades that occur. */
  lemma {:induction false} TallyKeys(grades: seq<GradeRecord>, m: Measure)
    requires AllOrdinary(grades)
    ensures forall k :: k in Tally(grades, m).order <==> k in GradesOf(grades)
    decreases |grades|
  {
    if |grades| > 0 {
      TallyKeys(grades[..|grades| - 1], m);
      GradesOfPrefix(grades);
    }
  }

  /** The key order does not depend on what is added up. */
  lemma {:induction false} TallyOrderIndependent(grades: seq<GradeRecord>, m1: Measure, m2: Measure)
    requires AllOrdinary(grades)
    ensures Tally(grades, m1).order == Tally(grades, m2).order
    decreases |grades|
  {
    if |grades| > 0 {
      TallyOrderIndependent(grades[..|grades| - 1], m1, m2);
    }
  }

  /** `order` lists keys of `xs` by increasing position of first occurrence. */
  ghost predicate FirstSeenOrdered(order: seq<string>, xs: seq<string>) {
    forall i, j :: 0 <= i < j < |order| ==>
      order[i] in xs && order[j] in xs && FirstIndex(xs, order[i]) < FirstIndex(xs, order[j])
  }

  /** Recording one more occurrence keeps the keys in first-seen order: an
      old key keeps its first position, a new key is first seen last. */
  lemma FirstSeenExtend(order: seq<string>, xs: seq<string>, g: string)
    requires FirstSeenOrdered(order, xs)
    requires forall k :: k in order <==> k in xs
    ensures FirstSeenOrdered(if g in order then order else order + [g], xs + [g])
  {
    var order' := if g in order then order else order + [g];
    forall i, j | 0 <= i < j < |order'|
      ensures order'[i] in xs + [g] && order'[j] in xs + [g]
      ensures FirstIndex(xs + [g], order'[i]) < FirstIndex(xs + [g], order'[j])
    {
      FirstIndexExtend(xs, g, order'[i]);
      if j < |order| {
        FirstIndexExtend(xs, g, order'[j]);
      } else {
        FirstIndexNew(xs, g);
      }
    }
  }

  /** Keys appear in the order in which their grade is first met. */
  lemma {:induction false} TallyFirstSeen(grades: seq<GradeRecord>, m: Measure)
    requires AllOrdinary(grades)
    ensures FirstSeenOrdered(Tally(grades, m).order, GradesOf(grades))
    decreases |grades|
  {
    if |grades| > 0 {
      var pre := grades[..|grades| - 1];
      var g := grades[|grades| - 1].grade;
      var p := Tally(pre, m);
      TallyFirstSeen(pre, m);
      TallyKeys(pre, m);
      GradesOfPrefix(grades);
      FirstSeenExtend(p.order, GradesOf(pre), g);
      assert Tally(grades, m).order == if g in p.order then p.order else p.order + [g];
    }
  }

  /** Each key holds the total weight of the records with that grade. */
  lemma {:induction false} TallyValues(grades: seq<GradeRecord>, m: Measure)
    requires AllOrdinary(grades)
    ensures var o := Tally(grades, m);
      forall k :: k in o.props ==> o.props[k] == WeightWithGrade(grades, m, k)
    decreases |grades|
  {
    if |grades| > 0 {
      var pre, g := grades[..|grades| - 1], grades[|grades| - 1];
      var p := Tally(pre, m);
      TallyValues(pre, m);
      if g.grade !in p.props {
        TallyKeys(pre, m);
        GradesOfPrefix(grades);
        WeightAbsent(pre, m, g.grade);
      }
      var o := Add(p, g, m);
      assert Tally(grades, m) == o;
      forall k | k in o.props
        ensures o.props[k] == WeightWithGrade(grades, m, k)
      {
        assert WeightWithGrade(grades, m, k) == WeightWithGrade(pre, m, k) + (if g.grade == k then Weight(m, g) else 0.0);
      }
    }
  }

  lemma {:induction false} WeightAbsent(grades: seq<GradeRecord>, m: Measure, k: string)
    requires k !in GradesOf(grades)
    ensures WeightWithGrade(grades, m, k) == 0.0
    decreases |grades|
  {
    if |grades| > 0 {
      GradesOfPrefix(grades);
      WeightAbsent(grades[..|grades| - 1], m, k);
    }
  }

  /** Counting with weight 1 gives the number of occurrences of the grade. */
  lemma {:induction false} CountIsMultiplicity(grades: seq<GradeRecord>, k: string)
    ensures WeightWithGrade(grades, Count, k) == multiset(GradesOf(grades))[k] as real
    decreases |grades|
  {
    if |grades| > 0 {
      var pre := grades[..|grades| - 1];
      CountIsMultiplicity(pre, k);
      GradesOfPrefix(grades);
      assert multiset(GradesOf(grades)) == multiset(GradesOf(pre)) + multiset{grades[|grades| - 1].grade};
    }
  }

  lemma TallyCounts(grades: seq<GradeRecord>)
    requires AllOrdinary(grades)
    ensures var o := Tally(grades, Count);
      forall k :: k in o.props ==> o.props[k] == multiset(GradesOf(grades))[k] as real
  {
    TallyValues(grades, Count);
    forall k | k in Tally(grades, Count).props {
      CountIsMultiplicity(grades, k);
    }
  }

  lemma TallyCredits(grades: seq<GradeRecord>)
    requires AllOrdinary(grades)
    ensures var o := Tally(grades, Credits);
      forall k :: k in o.props ==> o.props[k] == CreditsWithGrade(grades, k)
  {
    TallyValues(grades, Credits);
  }

  /** Sum of the values of the listed keys. */
  function SumOver(ks: seq<string>, props: map<string, real>): real
    decreases |ks|
  {
    if |ks| == 0 then 0.0
    else SumOver(ks[..|ks| - 1], props) + (if ks[|ks| - 1] in props then props[ks[|ks| - 1]] else 0.0)
  }

  lemma {:induction false} SumOverOther(ks: seq<string>, props: map<string, real>, k: string, v: real)
    requires k !in ks
    ensures SumOver(ks, props[k := v]) == SumOver(ks, props)
    decreases |ks|
  {
    if |ks| > 0 {
      SumOverOther(ks[..|ks| - 1], props, k, v);
    }
  }

  lemma {:induction false} SumOverUpdate(ks: seq<string>, props: map<string, real>, k: string, v: real)
    requires Distinct(ks) && k in ks && k in props
    ensures SumOver(ks, props[k := v]) == SumOver(ks, props) - props[k] + v
    decreases |ks|
  {
    var pre := ks[..|ks| - 1];
    if ks[|ks| - 1] == k {
      assert k !in pre;
      SumOverOther(pre, props, k, v);
    } else {
      SumOverUpdate(pre, props, k, v);
    }
  }

  /** Assigning `v` to `k` changes the sum of the values by what `k` held. */
  lemma AssignSum(o: Object<real>, k: string, v: real)
    requires Valid(o) && OrdinaryKey(k)
    ensures SumOver(Assign(o, k, v).order, Assign(o, k, v).props) == SumOver(o.order, o.props) - Lookup(o, k) + v
  {
    var r := Assign(o, k, v);
    if k in o.props {
      SumOverUpdate(o.order, o.props, k, v);
    } else {
      SumOverOther(o.order, o.props, k, v);
      assert r.order[..|r.order| - 1] == o.order;
    }
  }

  /** One record adds its weight to the sum of the values. */
  lemma AddSum(o: Object<real>, g: GradeRecord, m: Measure)
    requires Valid(o) && OrdinaryKey(g.grade)
    ensures SumOver(Add(o, g, m).order, Add(o, g, m).props) == SumOver(o.order, o.props) + Weight(m, g)
  {
    var v := Lookup(o, g.grade) + Weight(m, g);
    assert Add(o, g, m) == Assign(o, g.grade, v);
    AssignSum(o, g.grade, v);
  }

  /** Regrouping keeps the total: the values of the tally add up to the
      weight of all records. */
  lemma {:induction false} TallySum(grades: seq<GradeRecord>, m: Measure)
    requires AllOrdinary(grades)
    ensures var o := Tally(grades, m); SumOver(o.order, o.props) == TotalWeight(grades, m)
    decreases |grades|
  {
    if |grades| > 0 {
      var pre := grades[..|grades| - 1];
      TallySum(pre, m);
      AddSum(Tally(pre, m), grades[|grades| - 1], m);
    }
  }

  lemma {:induction false} SumSlicesPrefix(ks: seq<string>, props: map<string, real>, r: seq<GradeSlice>)
    requires forall k :: k in ks ==> k in props
    requires |r| == |ks|
    requires forall i :: 0 <= i < |r| ==> r[i] == GradeSlice(ks[i], props[ks[i]])
    ensures SumSlices(r) == SumOver(ks, props)
    decreases |r|
  {
    if |r| > 0 {
      SumSlicesPrefix(ks[..|r| - 1], props, r[..|r| - 1]);
    }
  }

  lemma {:induction false} SumCreditsPrefix(ks: seq<string>, props: map<string, real>, r: seq<GradeCredits>)
    requires forall k :: k in ks ==> k in props
    requires |r| == |ks|
    requires forall i :: 0 <= i < |r| ==> r[i] == GradeCredits(ks[i], props[ks[i]])
    ensures SumCredits(r) == SumOver(ks, props)
    decreases |r|
  {
    if |r| > 0 {
      SumCreditsPrefix(ks[..|r| - 1], props, r[..|r| - 1]);
    }
  }

  lemma {:induction false} TotalCountIsLength(grades: seq<GradeRecord>)
    ensures TotalWeight(grades, Count) == |grades| as real
    decreases |grades|
  {
    if |grades| > 0 {
      TotalCountIsLength(grades[..|grades| - 1]);
    }
  }

  /* ------------------------------------------------ properties of the page */

  /** The counts of the distribution add up to the number of records. */
  lemma DistributionSumsToCount(grades: seq<GradeRecord>)
    requires AllOrdinary(grades)
    ensures SumSlices(GradeDistribution(grades)) == |grades| as real
  {
    var o := Tally(grades, Count);
    var r := GradeDistribution(grades);
    SumSlicesPrefix(o.order, o.props, r);
    TallySum(grades, Count);
    TotalCountIsLength(grades);
  }

  /** The credits per grade add up to the credits of all records. */
  lemma CreditsSumToTotal(grades: seq<GradeRecord>)
    requires AllOrdinary(grades)
    ensures SumCredits(CreditsByGrade(grades)) == TotalCredits(grades)
  {
    var o := Tally(grades, Credits);
    var r := CreditsByGrade(grades);
    SumCreditsPrefix(o.order, o.props, r);
    TallySum(grades, Credits);
  }

  lemma DistributionNames(grades: seq<GradeRecord>)
    requires AllOrdinary(grades)
    ensures SliceNames(GradeDistribution(grades)) == Tally(grades, Count).order
  {
  }

  lemma CreditsNames(grades: seq<GradeRecord>)
    requires AllOrdinary(grades)
    ensures var r := CreditsByGrade(grades);
      |r| == |Tally(grades, Credits).order| && forall i :: 0 <= i < |r| ==> r[i].grade == Tally(grades, Credits).order[i]
  {
  }

  /** Each distinct grade appears exactly once, every grade that occurs
      appears, and grades are listed in the order they are first met. */
  lemma DistributionFirstSeen(grades: seq<GradeRecord>)
    requires AllOrdinary(grades)
    ensures var names := SliceNames(GradeDistribution(grades));
      && (forall k :: k in names <==> k in GradesOf(grades))
      && Distinct(names)
      && FirstSeenOrdered(names, GradesOf(grades))
  {
    DistributionNames(grades);
    TallyKeys(grades, Count);
    TallyFirstSeen(grades, Count);
  }

  /** The two groupings list the same grades in the same order. */
  lemma SameGradeOrder(grades: seq<GradeRecord>)
    requires AllOrdinary(grades)
    ensures var d, c := GradeDistribution(grades), CreditsByGrade(grades);
      |d| == |c| && forall i :: 0 <= i < |d| ==> d[i].name == c[i].grade
  {
    DistributionNames(grades);
    CreditsNames(grades);
    TallyOrderIndependent(grades, Count, Credits);
  }

  /* ---------------------------------------------------------- grade badge */

  const Green := "bg-green-100 text-green-800"
  const Blue := "bg-blue-100 text-blue-800"
  const Yellow := "bg-yellow-100 text-yellow-800"
  const Orange := "bg-orange-100 text-orange-800"

  /** `getGradeColor`: the badge classes of a grade, compared as an exact string. */
  function GradeColor(grade: string): (c: string)
    ensures c == Green <==> grade == "A" || grade == "A+"
    ensures c == Blue <==> grade == "A-" || grade == "B+"
    ensures c == Yellow <==> grade == "B"
    ensures c == Orange <==> grade !in {"A", "A+", "A-", "B+", "B"}
  {
    if grade in ["A", "A+"] then Green
    else if grade in ["A-", "B+"] then Blue
    else if grade in ["B"] then Yellow
    else Orange
  }
}

=== FILE: html_escape.dfy ===
/** `escapeHtml` of the HTML transcript export. It assigns the text to a
    `div`'s `textContent` and reads back `innerHTML`, so the result is the
    serialization of one text node whose parent is a `div`: the "escaping a
    string" algorithm of section 13.3 of the WHATWG HTML Living Standard
    (serializing HTML fragments), not in attribute mode. */
module HtmlEscape {

  const NoBreakSpace: char := '\U{A0}'

  /** The characters the algorithm replaces outside attribute mode. */
  predicate IsSpecial(c: char) {
    c == '&' || c == NoBreakSpace || c == '<' || c == '>'
  }

  function EscapeChar(c: char): (r: string)
    ensures !IsSpecial(c) ==> r == [c]
    ensures c == '&' ==> r == "&amp;"
    ensures c == NoBreakSpace ==> r == "&nbsp;"
    ensures c == '<' ==> r == "&lt;"
    ensures c == '>' ==> r == "&gt;"
    ensures IsSpecial(c) ==> |r| > 1 && r[0] == '&' && r[|r| - 1] == ';'
    ensures |r| >= 1 && '<' !in r && '>' !in r && NoBreakSpace !in r
  {
    if c == '&' then "&amp;"
    else if c == NoBreakSpace then "&nbsp;"
    else if c == '<' then "&lt;"
    else if c == '>' then "&gt;"
    else [c]
  }

  /** The escaped text: each character replaced by its escape, in order. */
  function EscapeText(s: string): (r: string)
    ensures '<' !in r && '>' !in r && NoBreakSpace !in r
    ensures |r| >= |s|
    decreases |s|
  {
    if |s| == 0 then "" else EscapeChar(s[0]) + EscapeText(s[1..])
  }

  /** `escapeHtml(text)`: "N/A" for an empty (falsy) text. */
  function EscapeHtml(text: string): (r: string)
    ensures text == "" ==> r == "N/A"
    ensures text != "" ==> r == EscapeText(text)
  {
    if text == "" then "N/A" else EscapeText(text)
  }

  /** Decoding of the four character references the escape produces; any
      other character is read as itself. */
  function Unescape(s: string): string
    decreases |s|
  {
    if |s| == 0 then ""
    else if "&amp;" <= s then "&" + Unescape(s[5..])
    else if "&nbsp;" <= s then [NoBreakSpace] + Unescape(s[6..])
    else if "&lt;" <= s then "<" + Unescape(s[4..])
    else if "&gt;" <= s then ">" + Unescape(s[4..])
    else [s[0]] + Unescape(s[1..])
  }

  /** The decoder reads one escaped character back and then carries on with
      what follows it. */
  lemma UnescapeStep(c: char, rest: string)
    ensures Unescape(EscapeChar(c) + rest) == [c] + Unescape(rest)
  {
    if IsSpecial(c) {
      var e := EscapeChar(c);
      var s := e + rest;
      assert s[..|e|] == e && s[|e|..] == rest;
      if c != '&' {
        assert s[1] != 'a';
      }
    } else {
      var s := [c] + rest;
      assert s[0] == c && s[1..] == rest;
    }
  }

  /** Escaping loses nothing: decoding gives the original text back. */
  lemma {:induction false} UnescapeEscape(s: string)
    ensures Unescape(EscapeText(s)) == s
    decreases |s|
  {
    if |s| > 0 {
      UnescapeEscape(s[1..]);
      UnescapeStep(s[0], EscapeText(s[1..]));
      assert [s[0]] + s[1..] == s;
    }
  }

  /** The escape of the non-empty text round-trips through the decoder. */
  lemma EscapeHtmlRoundTrip(text: string)
    requires text != ""
    ensures Unescape(EscapeHtml(text)) == text
  {
    UnescapeEscape(text);
  }

  /** Escaping works character by character. */
  lemma {:induction false} EscapeTextAppend(a: string, b: string)
    ensures EscapeText(a + b) == EscapeText(a) + EscapeText(b)
    decreases |a|
  {
    if |a| > 0 {
      assert (a + b)[0] == a[0] && (a + b)[1..] == a[1..] + b;
      EscapeTextAppend(a[1..], b);
      assert EscapeText(a + b) == EscapeChar(a[0]) + EscapeText(a[1..] + b);
    } else {
      assert a + b == b;
    }
  }

  /** A text with no special character is copied unchanged. */
  lemma {:induction false} EscapeTextPlain(s: string)
    requires forall i :: 0 <= i < |s| ==> !IsSpecial(s[i])
    ensures EscapeText(s) == s
    decreases |s|
  {
    if |s| > 0 {
      EscapeTextPlain(s[1..]);
    }
  }
}

=== FILE: html_transcript.dfy ===
/** The HTML transcript export: the same transcript written as an HTML page
    that a renderer turns into a PDF. Free text from the student record goes
    through `escapeHtml`; the grade and the classification are written as
    they are. Style sheet, template whitespace and the DOM round trip are not
    modelled; what is kept is which values appear, escaped or not. */
module HtmlTranscript {
  import opened Common
  import opened HtmlEscape
  import opened Transcript
  import opened Decimal

  /** The six label/value pairs of the student-information grid. */
  function HtmlStudentInfo(info: StudentInfo): (rows: seq<(string, string)>)
    ensures |rows| == 6
    ensures forall i :: 0 <= i < 6 ==> rows[i].0 == InfoLabels[i] && rows[i].1 == EscapeHtml(InfoFields(info)[i])
  {
    var f := InfoFields(info);
    seq(6, i requires 0 <= i < 6 => (InfoLabels[i], EscapeHtml(f[i])))
  }

  /** The two exports show the same student information: decoding the HTML
      value gives the value the jsPDF export writes ("N/A" for a missing one). */
  lemma StudentInfoAgrees(info: StudentInfo)
    ensures var h := HtmlStudentInfo(info); var p := PdfStudentInfo(info);
      forall i :: 0 <= i < 6 ==> h[i].0 == p[i].0 && Unescape(h[i].1) == p[i].1
  {
    var f := InfoFields(info);
    forall i | 0 <= i < 6
      ensures Unescape(HtmlStudentInfo(info)[i].1) == PdfStudentInfo(info)[i].1
    {
      if f[i] == "" {
        assert Unescape("N/A") == "N/A";
      } else {
        UnescapeEscape(f[i]);
      }
    }
  }

  /** The summary box of the HTML page. Nothing in it is escaped, the
      classification included. The page builds this box on its own rather
      than sharing the jsPDF code, so it gets its own definition here, and
      `SummaryAgrees` states that the two boxes agree. */
  function HtmlSummary(data: ProcessedGrades, fmt: Format): (s: Summary)
    ensures s.cgpa == fmt.toFixed2(data.gradeProjection.currentCgpa)
    ensures s.classification == data.gradeProjection.classification
    ensures s.totalCredits == fmt.show(data.gradeProjection.totalCredits)
    ensures AllDigits(s.totalCourses) && DigitsValue(s.totalCourses) == |data.allCourses|
  {
    DigitsValueOfNatToString(|data.allCourses|);
    Summary(fmt.toFixed2(data.gradeProjection.currentCgpa), data.gradeProjection.classification,
      fmt.show(data.gradeProjection.totalCredits), NatToString(|data.allCourses|))
  }

  /** Both exports write the same summary, character for character. */
  lemma SummaryAgrees(data: ProcessedGrades, fmt: Format)
    ensures HtmlSummary(data, fmt) == PdfSummary(data, fmt)
  {
  }

  /** The cells of one course row: code and name escaped, then credits, score,
      the grade as it is, and the grade's point value. */
  function HtmlRow(c: Course, gradeToGpa: string -> real, fmt: Format): (row: seq<string>)
    ensures |row| == 6
    ensures row[0] == EscapeHtml(c.courseCode) && row[1] == EscapeHtml(c.courseName)
    ensures row[2] == fmt.show(c.credits) && row[3] == ScoreCell(c.score, fmt)
    ensures row[4] == c.grade && row[5] == fmt.toFixed1(gradeToGpa(c.grade))
  {
    [EscapeHtml(c.courseCode), EscapeHtml(c.courseName), fmt.show(c.credits), ScoreCell(c.score, fmt),
     c.grade, fmt.toFixed1(gradeToGpa(c.grade))]
  }

  /** A semester section: its escaped title, the optional GPA block and the
      table rows. Unlike the jsPDF export the table (with its column header)
      is always written, even without rows. */
  datatype Section = Section(header: string, gpaBlock: Option<GpaLine>, rows: seq<seq<string>>)

  /** The GPA block: present when either value is defined, each part only
      when its own value is. */
  function HtmlGpaBlock(sem: Semester, fmt: Format): (block: Option<GpaLine>)
    ensures block.Some? <==> HasGpaLine(sem)
    ensures block.Some? ==> (block.value.semesterPart.Some? <==> sem.semesterGpa.Some?)
    ensures block.Some? ==> (block.value.cumulativePart.Some? <==> sem.cumulativeGpa.Some?)
    ensures block.Some? && sem.semesterGpa.Some? ==>
      block.value.semesterPart.value == "<strong>Semester GPA:</strong> " + fmt.toFixed2(sem.semesterGpa.value)
    ensures block.Some? && sem.cumulativeGpa.Some? ==>
      block.value.cumulativePart.value ==
        "<span style=\"margin-left: 30px;\"><strong>Cumulative GPA:</strong> " + fmt.toFixed2(sem.cumulativeGpa.value) + "</span>"
  {
    if !HasGpaLine(sem) then None
    else
      Some(GpaLine(
        if sem.semesterGpa.Some? then Some("<strong>Semester GPA:</strong> " + fmt.toFixed2(sem.semesterGpa.value)) else None,
        if sem.cumulativeGpa.Some?
        then Some("<span style=\"margin-left: 30px;\"><strong>Cumulative GPA:</strong> " + fmt.toFixed2(sem.cumulativeGpa.value) + "</span>")
        else None))
  }

  /** The two exports write the GPA line under the same condition and with the
      same parts. */
  lemma GpaBlockAgrees(sem: Semester, fmt: Format)
    ensures HtmlGpaBlock(sem, fmt).Some? <==> PdfGpaLine(sem, fmt).Some?
    ensures var h, p := HtmlGpaBlock(sem, fmt), PdfGpaLine(sem, fmt);
      h.Some? && p.Some? ==>
        && (h.value.semesterPart.Some? <==> p.value.semesterPart.Some?)
        && (h.value.cumulativePart.Some? <==> p.value.cumulativePart.Some?)
  {
  }

  function HtmlSection(sem: Semester, gradeToGpa: string -> real, fmt: Format): (s: Section)
    ensures s.header == EscapeHtml(sem.semester)
    ensures s.gpaBlock.Some? <==> HasGpaLine(sem)
    ensures s.gpaBlock == HtmlGpaBlock(sem, fmt)
    ensures var kept := ListedCourses(sem.courses);
      && |s.rows| == |kept|
      && forall i :: 0 <= i < |kept| ==>
        && |s.rows[i]| == 6
        && s.rows[i][0] == EscapeHtml(kept[i].courseCode)
        && s.rows[i][1] == EscapeHtml(kept[i].courseName)
        && (!Truthy(kept[i].score) ==> s.rows[i][3] == "-")
        && s.rows[i][4] == kept[i].grade
  {
    var kept := ListedCourses(sem.courses);
    Section(EscapeHtml(sem.semester), HtmlGpaBlock(sem, fmt),
      seq(|kept|, i requires 0 <= i < |kept| => HtmlRow(kept[i], gradeToGpa, fmt)))
  }

  /** The two exports list the same courses in the same order with the same
      cells, except that the HTML export escapes code and name (so an empty
      code or name shows as "N/A" there and as "" in the jsPDF table). */
  lemma RowsMatchPdf(sem: Semester, gradeToGpa: string -> real, fmt: Format)
    ensures var h := HtmlSection(sem, gradeToGpa, fmt).rows; var p := PdfTableBody(sem, gradeToGpa, fmt);
      && (p.None? <==> h == [])
      && (p.Some? ==> |p.value| == |h| && forall i :: 0 <= i < |h| ==>
            && h[i][0] == EscapeHtml(p.value[i][0])
            && h[i][1] == EscapeHtml(p.value[i][1])
            && h[i][2..] == p.value[i][2..])
  {
  }

  /** A semester whose only course has grade "NA" still gets its header and
      GPA block, over an empty table. */
  lemma NaOnlySemester(title: string, semGpa: Option<real>, cumGpa: Option<real>, c: Course,
                       gradeToGpa: string -> real, fmt: Format)
    requires c.grade == "NA"
    ensures var s := HtmlSection(Semester(title, semGpa, cumGpa, [c]), gradeToGpa, fmt);
      && s.rows == []
      && s.header == EscapeHtml(title)
      && (s.gpaBlock.Some? <==> semGpa.Some? || cumGpa.Some?)
    ensures PdfTableBody(Semester(title, semGpa, cumGpa, [c]), gradeToGpa, fmt).None?
  {
    ListedCoursesSingle(c);
  }

  /** The options handed to the renderer that matter here. */
  datatype ExportOptions = ExportOptions(margin: seq<real>, filename: string)

  /** The renderer options: 10 mm margins all round and the same file name
      as the jsPDF export. */
  function HtmlExportOptions(data: ProcessedGrades, isoNow: string): (opt: ExportOptions)
    ensures opt.margin == [10.0, 10.0, 10.0, 10.0]
    ensures opt.filename == TranscriptFilename(data.studentInfo.studentId, isoNow)
  {
    ExportOptions([10.0, 10.0, 10.0, 10.0],
      "Transcript_" + TemplateText(data.studentInfo.studentId) + "_" + DatePart(isoNow) + ".pdf")
  }
}

=== FILE: js_object.dfy ===
/** A plain JavaScript object used as a string-keyed dictionary
    (`Record<string, number>`): its own properties in creation order, as
    section 10.1.11.1 of ECMA-262 (OrdinaryOwnPropertyKeys) lists the string
    keys that are not array indices, and `Object.entries` returns them. */
module JsObject {
  import opened Decimal

  /** The largest array index, 2^32 - 2, in decimal. */
  const MaxArrayIndexText: string := "4294967294"

  /** An array index in the sense of section 6.1.7 of ECMA-262: the canonical
      decimal form (digits only, no leading zero) of an integer from 0 to
      2^32 - 2, compared with that bound digit by digit. Such keys are listed
      before all others, in ascending numeric order, whatever their creation
      order. */
  predicate IsArrayIndex(k: string) {
    && 0 < |k| <= |MaxArrayIndexText|
    && AllDigits(k)
    && (k[0] == '0' ==> |k| == 1)
    && (|k| == |MaxArrayIndexText| ==>
          forall i :: 0 <= i < |k| && k[..i] == MaxArrayIndexText[..i] ==> k[i] <= MaxArrayIndexText[i])
  }

  /** Properties an object literal `{}` inherits from Object.prototype: reading
      one through `o[k]` yields the inherited value instead of `undefined`, and
      assigning `__proto__` replaces the prototype instead of adding a key. */
  const PrototypeNames: set<string> := {
    "__proto__", "constructor", "hasOwnProperty", "isPrototypeOf",
    "propertyIsEnumerable", "toLocaleString", "toString", "valueOf",
    "__defineGetter__", "__defineSetter__", "__lookupGetter__", "__lookupSetter__"
  }

  /** A key for which `o[k]` reads and `o[k] = v` writes an own data property
      and `Object.entries` reports it in creation order. */
  predicate OrdinaryKey(k: string) {
    !IsArrayIndex(k) && k !in PrototypeNames
  }

  /** The own properties: their creation order and their values. */
  datatype Object<V> = Object(order: seq<string>, props: map<string, V>)

  ghost predicate Distinct(s: seq<string>) {
    forall i, j :: 0 <= i < j < |s| ==> s[i] != s[j]
  }

  /** Every property is listed exactly once. */
  ghost predicate Valid<V>(o: Object<V>) {
    && Distinct(o.order)
    && (forall k :: k in o.order ==> k in o.props)
    && (forall k :: k in o.props ==> k in o.order)
  }

  /** The object literal `{}`. */
  function Empty<V>(): (o: Object<V>)
    ensures Valid(o)
    ensures o.order == []
  {
    Object([], map[])
  }

  /** `o[k] || 0` on a numeric property: the value when present and truthy,
      0 otherwise (a missing key reads as `undefined`). */
  function Lookup(o: Object<real>, k: string): (v: real)
    requires OrdinaryKey(k)
    ensures k in o.props ==> v == o.props[k]
    ensures k !in o.props ==> v == 0.0
  {
    if k in o.props && o.props[k] != 0.0 then o.props[k] else 0.0
  }

  /** `o[k] = v`: an existing property keeps its place in the order, a new
      one is created after all others. */
  function Assign<V>(o: Object<V>, k: string, v: V): (r: Object<V>)
    requires Valid(o) && OrdinaryKey(k)
    ensures Valid(r)
    ensures k in o.props ==> r.order == o.order
    ensures k !in o.props ==> r.order == o.order + [k]
    ensures r.props == o.props[k := v]
  {
    if k in o.props then Object(o.order, o.props[k := v])
    else Object(o.order + [k], o.props[k := v])
  }

  /** `Object.entries(o)`: the key/value pairs in property order. */
  function Entries<V>(o: Object<V>): (e: seq<(string, V)>)
    requires Valid(o)
    ensures |e| == |o.order|
    ensures forall i :: 0 <= i < |e| ==> e[i].0 == o.order[i] && e[i].1 == o.props[o.order[i]]
  {
    seq(|o.order|, i requires 0 <= i < |o.order| && o.order[i] in o.props =>
      (o.order[i], o.props[o.order[i]]))
  }
}

=== FILE: money_service.dfy ===
/** The in-memory money-record service: a list seeded with two records and
    changed in place by create, update and remove. Each operation is a state
    transformer from the list before the call to the list after it and the
    reply (or the NotFound exception). Clock readings are parameters. */
module MoneyService {
  import opened Common
  import opened Decimal

  /** An instant, in milliseconds since the epoch. */
  type Instant = nat

  datatype Money = Money(
    id: string,
    name: string,
    amount: real,
    description: string,
    createdAt: Instant,
    updatedAt: Option<Instant>)

  datatype CreateMoneyDto = CreateMoneyDto(name: string, amount: real, description: string)

  /** A partial update: `Some` for each key present in the request body. */
  datatype UpdateMoneyDto = UpdateMoneyDto(name: Option<string>, amount: Option<real>, description: Option<string>)

  function NotFoundError(id: string): Error {
    NotFound("Money item with id " + id + " not found")
  }

  /** The mock data the constructor installs, both stamped with `now`. */
  function Seed(now: Instant): (items: seq<Money>)
    ensures |items| == 2
    ensures items[0].id == "m1" && items[1].id == "m2"
    ensures forall i :: 0 <= i < |items| ==> items[i].createdAt == now && items[i].updatedAt.None?
  {
    [Money("m1", "Savings Account", 1200.0, "Primary savings", now, None),
     Money("m2", "Checking Account", 450.0, "Daily spending", now, None)]
  }

  /** `create`: a new record built from the request, appended at the end.
      `now` is `new Date()` and `nowMs` the separate `Date.now()` reading
      that names the record. */
  function Create(items: seq<Money>, dto: CreateMoneyDto, now: Instant, nowMs: nat): (step: Step<seq<Money>, Money>)
    ensures step.reply.Success?
    ensures step.state == items + [step.reply.value]
    ensures var m := step.reply.value;
      && m.id == "m" + NatToString(nowMs)
      && m.name == dto.name && m.amount == dto.amount && m.description == dto.description
      && m.createdAt == now && m.updatedAt.None?
  {
    var m := Money("m" + NatToString(nowMs), dto.name, dto.amount, dto.description, now, None);
    Step(items + [m], Success(m))
  }

  /** `findAll`: the stored list itself, in stored order. */
  function FindAll(items: seq<Money>): (r: seq<Money>)
    ensures r == items
  {
    items
  }

  /** `items.findIndex(i => i.id === id)`, with `None` for -1. */
  function FindIndex(items: seq<Money>, id: string): (r: Option<nat>)
    ensures r.Some? ==> r.value < |items| && items[r.value].id == id
    ensures r.Some? ==> forall j :: 0 <= j < r.value ==> items[j].id != id
    ensures r.None? ==> forall j :: 0 <= j < |items| ==> items[j].id != id
    decreases |items|
  {
    if |items| == 0 then None
    else if items[0].id == id then Some(0)
    else
      match FindIndex(items[1..], id)
      case None => None
      case Some(k) => Some(k + 1)
  }

  /** `findOne`: the first record with the id, or NotFound. */
  function FindOne(items: seq<Money>, id: string): (r: Result<Money>)
    ensures r.Failure? <==> forall j :: 0 <= j < |items| ==> items[j].id != id
    ensures r.Failure? ==> r.error == NotFoundError(id)
    ensures r.Success? ==> exists i :: (0 <= i < |items| && items[i] == r.value && items[i].id == id &&
      forall j :: 0 <= j < i ==> items[j].id != id)
  {
    match FindIndex(items, id)
    case None => Failure(NotFoundError(id))
    case Some(i) => Success(items[i])
  }

  /** `{ ...existing, ...dto, updatedAt }`: keys present in the request
      override, all other fields keep their value. */
  function Merge(existing: Money, dto: UpdateMoneyDto, now: Instant): (m: Money)
    ensures m.id == existing.id && m.createdAt == existing.createdAt && m.updatedAt == Some(now)
    ensures m.name == (if dto.name.Some? then dto.name.value else existing.name)
    ensures m.amount == (if dto.amount.Some? then dto.amount.value else existing.amount)
    ensures m.description == (if dto.description.Some? then dto.description.value else existing.description)
    ensures dto == UpdateMoneyDto(None, None, None) ==> m == existing.(updatedAt := Some(now))
  {
    Money(existing.id, dto.name.GetOr(existing.name), dto.amount.GetOr(existing.amount),
      dto.description.GetOr(existing.description), existing.createdAt, Some(now))
  }

  /** `update`: the first record with the id is replaced by its merge with
      the request; NotFound (and no change) when there is none. */
  function Update(items: seq<Money>, id: string, dto: UpdateMoneyDto, now: Instant): (step: Step<seq<Money>, Money>)
    ensures FindIndex(items, id).None? ==> step == Step(items, Failure(NotFoundError(id)))
    ensures FindIndex(items, id).Some? ==>
      var i := FindIndex(items, id).value;
      && |step.state| == |items|
      && (forall j :: 0 <= j < |items| && j != i ==> step.state[j] == items[j])
      && step.reply == Success(step.state[i])
      && step.state[i].id == id
      && step.state[i].name == (if dto.name.Some? then dto.name.value else items[i].name)
      && step.state[i].amount == (if dto.amount.Some? then dto.amount.value else items[i].amount)
      && step.state[i].description == (if dto.description.Some? then dto.description.value else items[i].description)
      && step.state[i].createdAt == items[i].createdAt
      && step.state[i].updatedAt == Some(now)
  {
    match FindIndex(items, id)
    case None => Step(items, Failure(NotFoundError(id)))
    case Some(i) =>
      var updated := Merge(items[i], dto, now);
      Step(items[i := updated], Success(updated))
  }

  /** `remove`: the first record with the id is spliced out and
      `{ success: true }` returned; NotFound (and no change) when there is none. */
  function Remove(items: seq<Money>, id: string): (step: Step<seq<Money>, bool>)
    ensures FindIndex(items, id).None? ==> step == Step(items, Failure(NotFoundError(id)))
    ensures FindIndex(items, id).Some? ==>
      var i := FindIndex(items, id).value;
      && step.reply == Success(true)
      && |step.state| == |items| - 1
      && step.state == items[..i] + items[i + 1..]
      && multiset(step.state) + multiset{items[i]} == multiset(items)
  {
    match FindIndex(items, id)
    case None => Step(items, Failure(NotFoundError(id)))
    case Some(i) =>
      assert items == items[..i] + [items[i]] + items[i + 1..];
      Step(items[..i] + items[i + 1..], Success(true))
  }

  /* -------------------------------------------------------- properties */

  /** FindIndex answers with the first index holding the id. */
  lemma FindIndexIsFirst(items: seq<Money>, id: string, i: nat)
    requires i < |items| && items[i].id == id
    requires forall j :: 0 <= j < i ==> items[j].id != id
    ensures FindIndex(items, id) == Some(i)
  {
  }

  /** A record created under a fresh id is found again by that id. */
  lemma CreateThenFindOne(items: seq<Money>, dto: CreateMoneyDto, now: Instant, nowMs: nat)
    requires forall j :: 0 <= j < |items| ==> items[j].id != "m" + NatToString(nowMs)
    ensures var step := Create(items, dto, now, nowMs);
      FindOne(step.state, step.reply.value.id) == step.reply
  {
    var step := Create(items, dto, now, nowMs);
    FindIndexIsFirst(step.state, step.reply.value.id, |items|);
  }

  /** Removing a record created under a fresh id restores the list. */
  lemma CreateThenRemove(items: seq<Money>, dto: CreateMoneyDto, now: Instant, nowMs: nat)
    requires forall j :: 0 <= j < |items| ==> items[j].id != "m" + NatToString(nowMs)
    ensures var step := Create(items, dto, now, nowMs);
      Remove(step.state, step.reply.value.id) == Step(items, Success(true))
  {
    var step := Create(items, dto, now, nowMs);
    FindIndexIsFirst(step.state, step.reply.value.id, |items|);
    assert step.state[..|items|] == items;
    assert step.state[|items| + 1..] == [];
    assert items + [] == items;
  }

  /** After an update, looking the id up returns the updated record. */
  lemma UpdateThenFindOne(items: seq<Money>, id: string, dto: UpdateMoneyDto, now: Instant)
    requires Update(items, id, dto, now).reply.Success?
    ensures var step := Update(items, id, dto, now);
      FindOne(step.state, id) == step.reply
  {
    var step := Update(items, id, dto, now);
    var i := FindIndex(items, id).value;
    FindIndexIsFirst(step.state, id, i);
  }

  /** Two records created in the same millisecond get the same id, and the
      later one can no longer be reached by id: lookups stop at the first. */
  lemma SameMillisecondShadows(items: seq<Money>, a: CreateMoneyDto, b: CreateMoneyDto, now: Instant, nowMs: nat)
    requires forall j :: 0 <= j < |items| ==> items[j].id != "m" + NatToString(nowMs)
    ensures var first := Create(items, a, now, nowMs);
      var second := Create(first.state, b, now, nowMs);
      && second.reply.value.id == first.reply.value.id
      && FindOne(second.state, second.reply.value.id) == first.reply
  {
    var first := Create(items, a, now, nowMs);
    var second := Create(first.state, b, now, nowMs);
    FindIndexIsFirst(second.state, first.reply.value.id, |items|);
  }
}

=== FILE: transcript.dfy ===
/** The layout rules of the jsPDF transcript export: the student-information
    values, which courses a semester table lists and what each row shows, the
    conditional GPA line, the page-break test before a semester, the footer
    stamped on every page, and the file name. Drawing itself (fonts, colours,
    positions of the header band) belongs to the PDF library. */
module Transcript {
  import opened Common
  import opened Decimal
  import opened WordWrap

  /** The student record. A missing text field reads like an empty one
      wherever it passes through `|| 'N/A'` or `escapeHtml`, so only the
      student id, which the file name interpolates as it is, keeps the
      difference between missing and empty. */
  datatype StudentInfo = StudentInfo(
    name: string,                 // ten_sinh_vien
    studentId: Option<string>,    // ma_sinh_vien
    faculty: string,     // khoa
    major: string,       // nganh
    className: string,   // lop
    cohort: string)      // khoa_hoc

  datatype GradeProjection = GradeProjection(currentCgpa: real, classification: string, totalCredits: real)

  datatype Course = Course(courseCode: string, courseName: string, credits: real, score: Option<real>, grade: string)

  datatype Semester = Semester(semester: string, semesterGpa: Option<real>, cumulativeGpa: Option<real>, courses: seq<Course>)

  datatype ProcessedGrades = ProcessedGrades(
    studentInfo: StudentInfo,
    gradeProjection: GradeProjection,
    allCourses: seq<Course>,
    semesters: seq<Semester>)

  /** How numbers are rendered: `toFixed(1)`, `toFixed(2)` and `String(n)`. */
  datatype Format = Format(toFixed1: real -> string, toFixed2: real -> string, show: real -> string)

  /* ------------------------------------------------- student information */

  const InfoLabels: seq<string> :=
    ["Student Name:", "Student ID:", "Faculty:", "Major:", "Class:", "Academic Year:"]

  function InfoFields(info: StudentInfo): (s: seq<string>)
    ensures |s| == 6
  {
    [info.name, info.studentId.GetOr(""), info.faculty, info.major, info.className, info.cohort]
  }

  /** `value || 'N/A'`. */
  function OrNA(v: string): (r: string)
    ensures r != ""
    ensures v != "" ==> r == v
  {
    if v == "" then "N/A" else v
  }

  /** The six label/value rows of the student-information block. */
  function PdfStudentInfo(info: StudentInfo): (rows: seq<(string, string)>)
    ensures |rows| == 6
    ensures forall i :: 0 <= i < 6 ==> rows[i].0 == InfoLabels[i]
    ensures forall i :: 0 <= i < 6 ==> rows[i].1 != ""
    ensures forall i :: 0 <= i < 6 ==>
      (InfoFields(info)[i] == "" ==> rows[i].1 == "N/A") && (InfoFields(info)[i] != "" ==> rows[i].1 == InfoFields(info)[i])
  {
    var f := InfoFields(info);
    seq(6, i requires 0 <= i < 6 => (InfoLabels[i], OrNA(f[i])))
  }

  /* ------------------------------------------------------------ summary */

  /** The four values of the academic-summary box, as written. */
  datatype Summary = Summary(cgpa: string, classification: string, totalCredits: string, totalCourses: string)

  /** The summary box: the CGPA to two decimals, the classification as it
      is, the credit total and the number of courses (all semesters). */
  function PdfSummary(data: ProcessedGrades, fmt: Format): (s: Summary)
    ensures s.cgpa == fmt.toFixed2(data.gradeProjection.currentCgpa)
    ensures s.classification == data.gradeProjection.classification
    ensures s.totalCredits == fmt.show(data.gradeProjection.totalCredits)
    ensures AllDigits(s.totalCourses) && DigitsValue(s.totalCourses) == |data.allCourses|
  {
    DigitsValueOfNatToString(|data.allCourses|);
    Summary(fmt.toFixed2(data.gradeProjection.currentCgpa), data.gradeProjection.classification,
      fmt.show(data.gradeProjection.totalCredits), NatToString(|data.allCourses|))
  }

  /* ---------------------------------------------------- semester tables */

  /** `c.grade && c.grade !== '' && c.grade !== 'NA'`. */
  predicate Listed(c: Course) {
    c.grade != "" && c.grade != "NA"
  }

  /** The courses a semester table lists. */
  function ListedCourses(cs: seq<Course>): (r: seq<Course>)
    ensures |r| <= |cs|
    ensures forall i :: 0 <= i < |r| ==> Listed(r[i])
    ensures forall c :: c in r <==> c in cs && Listed(c)
    decreases |cs|
  {
    if |cs| == 0 then []
    else ListedCourses(cs[..|cs| - 1]) + (if Listed(cs[|cs| - 1]) then [cs[|cs| - 1]] else [])
  }

  /** Filtering keeps the input order: it commutes with concatenation. */
  lemma {:induction false} ListedCoursesAppend(a: seq<Course>, b: seq<Course>)
    ensures ListedCourses(a + b) == ListedCourses(a) + ListedCourses(b)
    decreases |b|
  {
    if |b| == 0 {
      assert a + b == a;
    } else {
      assert (a + b)[..|a + b| - 1] == a + b[..|b| - 1];
      ListedCoursesAppend(a, b[..|b| - 1]);
    }
  }

  /** A course that is listed is kept, one that is not is dropped. */
  lemma ListedCoursesSingle(c: Course)
    ensures ListedCourses([c]) == if Listed(c) then [c] else []
  {
    assert [c][..0] == [];
  }

  /** A score is shown when it is truthy: present and not zero. */
  predicate Truthy(score: Option<real>) {
    score.Some? && score.value != 0.0
  }

  /** `course.score ? course.score.toFixed(1) : '-'`. */
  function ScoreCell(score: Option<real>, fmt: Format): (cell: string)
    ensures !Truthy(score) ==> cell == "-"
    ensures Truthy(score) ==> cell == fmt.toFixed1(score.value)
  {
    if Truthy(score) then fmt.toFixed1(score.value) else "-"
  }

  /** The six cells of a course row: code, name, credits, score, grade and the
      grade's point value from the grade-point table `gradeToGpa`. On a
      string, `x || ''` is `x` itself. */
  function PdfRow(c: Course, gradeToGpa: string -> real, fmt: Format): (row: seq<string>)
    ensures |row| == 6
    ensures row[0] == c.courseCode && row[1] == c.courseName && row[4] == c.grade
    ensures row[2] == fmt.show(c.credits)
    ensures !Truthy(c.score) ==> row[3] == "-"
    ensures Truthy(c.score) ==> row[3] == fmt.toFixed1(c.score.value)
    ensures row[5] == fmt.toFixed1(gradeToGpa(c.grade))
  {
    [c.courseCode, c.courseName, fmt.show(c.credits), ScoreCell(c.score, fmt), c.grade,
     fmt.toFixed1(gradeToGpa(c.grade))]
  }

  /** The body of a semester's table, or `None` when no course is listed and
      no table is drawn. */
  function PdfTableBody(sem: Semester, gradeToGpa: string -> real, fmt: Format): (body: Option<seq<seq<string>>>)
    ensures body.None? <==> ListedCourses(sem.courses) == []
    ensures body.Some? ==>
      var kept := ListedCourses(sem.courses);
      && |body.value| == |kept|
      && forall i :: 0 <= i < |kept| ==>
        && |body.value[i]| == 6
        && body.value[i][0] == kept[i].courseCode
        && body.value[i][1] == kept[i].courseName
        && body.value[i][2] == fmt.show(kept[i].credits)
        && (Truthy(kept[i].score) ==> body.value[i][3] == fmt.toFixed1(kept[i].score.value))
        && (!Truthy(kept[i].score) ==> body.value[i][3] == "-")
        && body.value[i][4] == kept[i].grade
        && body.value[i][4] != "" && body.value[i][4] != "NA"
        && body.value[i][5] == fmt.toFixed1(gradeToGpa(kept[i].grade))
  {
    var kept := ListedCourses(sem.courses);
    if kept == [] then None
    else Some(seq(|kept|, i requires 0 <= i < |kept| => PdfRow(kept[i], gradeToGpa, fmt)))
  }

  /* ------------------------------------------------------------ GPA line */

  /** `semesterGpa !== undefined || cumulativeGpa !== undefined`. */
  predicate HasGpaLine(sem: Semester) {
    sem.semesterGpa.Some? || sem.cumulativeGpa.Some?
  }

  /** The parts of the GPA line that are written. */
  datatype GpaLine = GpaLine(semesterPart: Option<string>, cumulativePart: Option<string>)

  /** The GPA line under a semester header: written only when one of the two
      values is defined, each part only when its own value is. */
  function PdfGpaLine(sem: Semester, fmt: Format): (line: Option<GpaLine>)
    ensures line.Some? <==> HasGpaLine(sem)
    ensures line.Some? ==> (line.value.semesterPart.Some? <==> sem.semesterGpa.Some?)
    ensures line.Some? ==> (line.value.cumulativePart.Some? <==> sem.cumulativeGpa.Some?)
    ensures line.Some? && sem.semesterGpa.Some? ==>
      line.value.semesterPart.value == "Semester GPA: " + fmt.toFixed2(sem.semesterGpa.value)
    ensures line.Some? && sem.cumulativeGpa.Some? ==>
      line.value.cumulativePart.value == "Cumulative GPA: " + fmt.toFixed2(sem.cumulativeGpa.value)
  {
    if !HasGpaLine(sem) then None
    else
      Some(GpaLine(
        if sem.semesterGpa.Some? then Some("Semester GPA: " + fmt.toFixed2(sem.semesterGpa.value)) else None,
        if sem.cumulativeGpa.Some? then Some("Cumulative GPA: " + fmt.toFixed2(sem.cumulativeGpa.value)) else None))
  }

  /* -------------------------------------------------------------- layout */

  const Margin: real := 15.0

  /** The space kept free at the bottom of a page before a semester starts. */
  const BottomReserve: real := 60.0

  /** The page count so far and the vertical position on the current page. */
  datatype Cursor = Cursor(pages: nat, y: real)

  /** Before a semester: a new page, starting at the margin, exactly when the
      position is below `pageHeight - 60`. */
  function StartSemester(c: Cursor, pageHeight: real): (r: Cursor)
    ensures r.pages == c.pages + 1 <==> c.y > pageHeight - BottomReserve
    ensures c.y <= pageHeight - BottomReserve ==> r == c
    ensures r.pages == c.pages + 1 ==> r.y == Margin
    ensures r.y <= pageHeight - BottomReserve || r.y == Margin
  {
    if c.y > pageHeight - BottomReserve then Cursor(c.pages + 1, Margin) else c
  }

  /** What the table library reports after drawing a table: the pages it
      added and the position below the table. */
  datatype TableEnd = TableEnd(pagesAdded: nat, finalY: real)

  /** The number of lines the semester label wraps to in the header band
      (drawn at x = margin + 5 with a maximum width of 170). */
  function HeaderLines(sem: Semester, pageWidth: real, width: string -> real, measureFails: bool): (n: nat)
    ensures n >= 1
    ensures sem.semester == "" || measureFails ==> n == 1
    ensures sem.semester != "" && !measureFails ==> n == |SplitText(width, sem.semester, 170.0)|
  {
    AddTextLineCount(width, sem.semester, Margin + 5.0, Some(170.0), pageWidth, measureFails)
  }

  /** `startY` of the semester's table: below the header band, which grows by
      5 for each wrapped line of the label after the first, and below the GPA
      line when there is one. */
  function TableStart(c: Cursor, sem: Semester, pageHeight: real, pageWidth: real,
                      width: string -> real, measureFails: bool): (y: real)
    ensures var s := StartSemester(c, pageHeight);
      y == s.y + 5.0 * HeaderLines(sem, pageWidth, width, measureFails) as real + 3.0
             + (if HasGpaLine(sem) then 5.0 else 0.0)
    ensures y >= StartSemester(c, pageHeight).y + 8.0
  {
    var s := StartSemester(c, pageHeight);
    var headerLines := HeaderLines(sem, pageWidth, width, measureFails);
    var y1 := s.y + (if headerLines > 1 then (headerLines - 1) as real * 5.0 else 0.0) + 8.0;
    if HasGpaLine(sem) then y1 + 5.0 else y1
  }

  /** The position after one semester block: the page-break test, the header
      band, the GPA line when present, and then either the table, ending 5
      above the new position, or, without one, a gap of 5. */
  function LayoutSemester(c: Cursor, sem: Semester, pageHeight: real, pageWidth: real,
                          width: string -> real, measureFails: bool, table: TableEnd): (r: Cursor)
    ensures var s := StartSemester(c, pageHeight);
      && (ListedCourses(sem.courses) != [] ==> r.pages == s.pages + table.pagesAdded && r.y == table.finalY + 5.0)
      && (ListedCourses(sem.courses) == [] ==>
            && r.pages == s.pages
            && r.y == TableStart(c, sem, pageHeight, pageWidth, width, measureFails) + 5.0
            && r.y == s.y + 5.0 * HeaderLines(sem, pageWidth, width, measureFails) as real + 8.0
                      + (if HasGpaLine(sem) then 5.0 else 0.0))
    ensures r.pages >= c.pages
  {
    var s := StartSemester(c, pageHeight);
    if ListedCourses(sem.courses) != [] then Cursor(s.pages + table.pagesAdded, table.finalY + 5.0)
    else Cursor(s.pages, TableStart(c, sem, pageHeight, pageWidth, width, measureFails) + 5.0)
  }

  /* -------------------------------------------------------------- footer */

  datatype Footer = Footer(page: nat, pageLabel: string, generated: string)

  function FooterLabel(i: nat, n: nat): string {
    "Page " + NatToString(i) + " of " + NatToString(n)
  }

  /** The footers written by the loop over pages 1..n, one per page. The
      loop reads the clock anew on every page: `dates[i]` is the formatted
      date of the reading taken for page i + 1. */
  function Footers(n: nat, dates: seq<string>): (r: seq<Footer>)
    requires |dates| == n
    ensures |r| == n
    ensures forall i :: 0 <= i < n ==>
      r[i].page == i + 1 && r[i].pageLabel == FooterLabel(i + 1, n) && r[i].generated == "Generated on " + dates[i]
  {
    seq(n, i requires 0 <= i < n => Footer(i + 1, FooterLabel(i + 1, n), "Generated on " + dates[i]))
  }

  /** Two digit strings each followed by a non-digit that spell the same text
      are the same digits. */
  lemma {:induction false} DigitsPrefixUnique(a: string, ta: string, b: string, tb: string)
    requires AllDigits(a) && AllDigits(b)
    requires |ta| > 0 && !IsDigit(ta[0]) && |tb| > 0 && !IsDigit(tb[0])
    requires a + ta == b + tb
    ensures a == b
  {
    assert forall k :: 0 <= k < |a| ==> (a + ta)[k] == a[k];
    assert forall k :: 0 <= k < |b| ==> (b + tb)[k] == b[k];
    assert (a + ta)[|a|] == ta[0] && (b + tb)[|b|] == tb[0];
    if |a| == |b| {
      assert (a + ta)[..|a|] == a;
      assert (b + tb)[..|b|] == b;
    }
  }

  /** Every page carries its own number: the footers of two pages differ. */
  lemma FooterLabelsDistinct(n: nat, i: nat, j: nat)
    requires FooterLabel(i, n) == FooterLabel(j, n)
    ensures i == j
  {
    var a, b := NatToString(i), NatToString(j);
    var t := " of " + NatToString(n);
    assert FooterLabel(i, n) == "Page " + (a + t);
    assert FooterLabel(j, n) == "Page " + (b + t);
    assert ("Page " + (a + t))[5..] == a + t;
    assert ("Page " + (b + t))[5..] == b + t;
    DigitsPrefixUnique(a, t, b, t);
    NatToStringInjective(i, j);
  }

  /* ------------------------------------------------------------ filename */

  /** `iso.split('T')[0]`: the text before the first 'T'. */
  function DatePart(iso: string): (d: string)
    ensures d <= iso
    ensures 'T' !in d
    ensures |d| < |iso| ==> iso[|d|] == 'T'
    decreases |iso|
  {
    if |iso| == 0 || iso[0] == 'T' then "" else [iso[0]] + DatePart(iso[1..])
  }

  /** For a `toISOString()` value `YYYY-MM-DDTHH:mm:ss.sssZ`, the date part
      is its first ten characters. */
  lemma DatePartOfIso(iso: string)
    requires |iso| > 10 && iso[10] == 'T' && 'T' !in iso[..10]
    ensures DatePart(iso) == iso[..10]
  {
  }

  /** A value as a template literal writes it: a missing one as "undefined". */
  function TemplateText(v: Option<string>): (s: string)
    ensures v.Some? ==> s == v.value
    ensures v.None? ==> s == "undefined"
  {
    match v
    case Some(t) => t
    case None => "undefined"
  }

  /** `Transcript_${studentId}_${date}.pdf`, the date taken from the
      generation instant `isoNow`. */
  function TranscriptFilename(studentId: Option<string>, isoNow: string): (f: string)
    ensures var id := TemplateText(studentId);
      && "Transcript_" + id + "_" <= f
      && |f| == |"Transcript_" + id + "_"| + |DatePart(isoNow)| + 4
      && f[|"Transcript_" + id + "_"| .. |f| - 4] == DatePart(isoNow)
    ensures f[|f| - 4..] == ".pdf"
  {
    "Transcript_" + TemplateText(studentId) + "_" + DatePart(isoNow) + ".pdf"
  }

  /** A record without a student id still gets a file name, with the word
      "undefined" where the id would be. */
  lemma MissingIdFilename(isoNow: string)
    requires |isoNow| > 10 && isoNow[10] == 'T' && 'T' !in isoNow[..10]
    ensures TranscriptFilename(None, isoNow) == "Transcript_undefined_" + isoNow[..10] + ".pdf"
  {
    DatePartOfIso(isoNow);
  }

  /** For one student, the file name tells the generation date. */
  lemma FilenameDeterminesDate(studentId: Option<string>, isoA: string, isoB: string)
    requires TranscriptFilename(studentId, isoA) == TranscriptFilename(studentId, isoB)
    ensures DatePart(isoA) == DatePart(isoB)
  {
  }
}

=== FILE: user_controller.dfy ===
/** The profile endpoints. The JWT guard has already run; what it attached
    to the request (possibly nothing) is the payload. A user may read and
    change only their own profile, and the password hash never leaves the
    server. */
module UserController {
  import opened Common
  import opened UserService

  /** The verified token payload; `sub` may be absent. */
  datatype JwtPayload = JwtPayload(sub: Option<string>)

  /** The entity without its password hash. */
  datatype PublicUser = PublicUser(
    id: string,
    email: string,
    fullName: string,
    studentId: string,
    role: string,
    verified: bool,
    preferences: Preferences,
    createdAt: string)

  datatype ProfileResponse = ProfileResponse(success: bool, user: PublicUser)

  const AccessDenied: Error := Forbidden("Access denied for this profile")
  const UserNotFound: Error := NotFound("User not found")

  /** `!payload || payload.sub !== id` is false. */
  predicate Authorized(payload: Option<JwtPayload>, id: string) {
    payload.Some? && payload.value.sub == Some(id)
  }

  /** `const { passwordHash: _, ...userWithoutPassword } = user`. */
  function WithoutPassword(u: User): (p: PublicUser)
    ensures WithPassword(p, u.passwordHash) == u
  {
    PublicUser(u.id, u.email, u.fullName, u.studentId, u.role, u.verified, u.preferences, u.createdAt)
  }

  function WithPassword(p: PublicUser, passwordHash: string): User {
    User(p.id, p.email, passwordHash, p.fullName, p.studentId, p.role, p.verified, p.preferences, p.createdAt)
  }

  /** Stripping drops the password hash and nothing else: putting it back
      gives the entity, and every public entity arises this way. */
  lemma StripOnlyPassword(u: User, p: PublicUser, passwordHash: string)
    ensures WithPassword(WithoutPassword(u), u.passwordHash) == u
    ensures WithoutPassword(WithPassword(p, passwordHash)) == p
  {
  }

  /** `GET /user/:id`. */
  function GetProfile(t: Table, id: string, payload: Option<JwtPayload>): (r: Result<ProfileResponse>)
    ensures !Authorized(payload, id) ==> r == Failure(AccessDenied)
    ensures Authorized(payload, id) && FindById(t, id).None? ==> r == Failure(UserNotFound)
    ensures r.Success? <==> Authorized(payload, id) && id in t
    ensures r.Success? ==> r.value.success
    ensures r.Success? ==> WithPassword(r.value.user, t[id].passwordHash) == MapToEntity(t[id])
  {
    if !Authorized(payload, id) then Failure(AccessDenied)
    else
      match FindById(t, id)
      case None => Failure(UserNotFound)
      case Some(u) => Success(ProfileResponse(true, WithoutPassword(u)))
  }

  /** `PUT /user/:id`: the service is called only once authorization has
      passed, and its exception, if any, is passed on. */
  function UpdateProfile(t: Table, id: string, dto: UpdateUserDto, payload: Option<JwtPayload>): (step: Step<Table, ProfileResponse>)
    ensures !Authorized(payload, id) ==> step == Step(t, Failure(AccessDenied))
    ensures Authorized(payload, id) ==> step.state == Update(t, id, dto).state
    ensures Authorized(payload, id) && Update(t, id, dto).reply.Failure? ==>
      step.reply == Failure(Update(t, id, dto).reply.error)
    ensures step.reply.Success? ==>
      && step.reply.value.success
      && WithPassword(step.reply.value.user, t[id].passwordHash) == Update(t, id, dto).reply.value
  {
    if !Authorized(payload, id) then Step(t, Failure(AccessDenied))
    else
      var s := Update(t, id, dto);
      match s.reply
      case Failure(e) => Step(s.state, Failure(e))
      case Success(u) => Step(s.state, Success(ProfileResponse(true, WithoutPassword(u))))
  }

  /** After a successful profile update, reading the profile shows the
      updated user. */
  lemma UpdateThenGet(t: Table, id: string, dto: UpdateUserDto, payload: Option<JwtPayload>)
    requires UpdateProfile(t, id, dto, payload).reply.Success?
    ensures var step := UpdateProfile(t, id, dto, payload);
      GetProfile(step.state, id, payload) == step.reply
  {
    UpdateThenFindById(t, id, dto);
  }

  /** Nobody reads or changes another user's profile: with a token for a
      different subject both endpoints refuse and the table is untouched. */
  lemma OtherSubjectRefused(t: Table, id: string, other: string, dto: UpdateUserDto)
    requires other != id
    ensures GetProfile(t, id, Some(JwtPayload(Some(other)))) == Failure(AccessDenied)
    ensures UpdateProfile(t, id, dto, Some(JwtPayload(Some(other)))) == Step(t, Failure(AccessDenied))
  {
  }
}

=== FILE: user_service.dfy ===
/** The user service over the users table of the database. The table is a
    map from id to stored row; e-mail and student id are unique columns, so a
    valid table has at most one row for each. Each operation that writes is a
    state transformer returning the table after the call and the reply or
    the exception raised. */
module UserService {
  import opened Common

  /** A stored row. `createdAt` is kept as its ISO-8601 rendering, which is
      all the service ever exposes of it. */
  datatype UserRow = UserRow(
    id: string,
    email: string,
    passwordHash: string,
    fullName: string,
    studentId: string,
    role: string,
    verified: bool,
    emailAlerts: bool,
    createdAt: string)

  datatype Preferences = Preferences(emailAlerts: bool)

  /** The entity the service hands out: the row with `emailAlerts` moved
      under `preferences`. */
  datatype User = User(
    id: string,
    email: string,
    passwordHash: string,
    fullName: string,
    studentId: string,
    role: string,
    verified: bool,
    preferences: Preferences,
    createdAt: string)

  type Table = map<string, UserRow>

  /** Rows are filed under their id, and the unique columns hold no duplicates. */
  predicate Valid(t: Table) {
    && (forall id :: id in t ==> t[id].id == id)
    && (forall a, b :: a in t && b in t && t[a].email == t[b].email ==> a == b)
    && (forall a, b :: a in t && b in t && t[a].studentId == t[b].studentId ==> a == b)
  }

  predicate EmailTaken(t: Table, email: string) {
    exists id :: id in t && t[id].email == email
  }

  predicate StudentIdTaken(t: Table, studentId: string) {
    exists id :: id in t && t[id].studentId == studentId
  }

  /** `mapToEntity`. */
  function MapToEntity(row: UserRow): (u: User)
    ensures u.id == row.id && u.email == row.email && u.passwordHash == row.passwordHash
    ensures u.fullName == row.fullName && u.studentId == row.studentId && u.role == row.role
    ensures u.verified == row.verified && u.createdAt == row.createdAt
    ensures u.preferences.emailAlerts == row.emailAlerts
  {
    User(row.id, row.email, row.passwordHash, row.fullName, row.studentId, row.role, row.verified,
      Preferences(row.emailAlerts), row.createdAt)
  }

  /** The row an entity stands for. */
  function RowOf(u: User): UserRow {
    UserRow(u.id, u.email, u.passwordHash, u.fullName, u.studentId, u.role, u.verified,
      u.preferences.emailAlerts, u.createdAt)
  }

  /** Mapping to the entity loses and invents nothing: it is a bijection
      between rows and entities. */
  lemma MapToEntityBijective(row: UserRow, u: User)
    ensures RowOf(MapToEntity(row)) == row
    ensures MapToEntity(RowOf(u)) == u
  {
  }

  /** `findById`. */
  function FindById(t: Table, id: string): (r: Option<User>)
    ensures r.None? <==> id !in t
    ensures r.Some? ==> RowOf(r.value) == t[id]
  {
    if id in t then Some(MapToEntity(t[id])) else None
  }

  /** `findByEmail`: the entity of the one row with that e-mail. */
  function FindByEmail(t: Table, email: string): (r: Option<User>)
    requires Valid(t)
    ensures r.None? <==> !EmailTaken(t, email)
    ensures r.Some? ==> r.value.email == email && r.value.id in t && RowOf(r.value) == t[r.value.id]
  {
    if EmailTaken(t, email) then
      var id :| id in t && t[id].email == email;
      Some(MapToEntity(t[id]))
    else None
  }

  /** `findByStudentId`: the entity of the one row with that student id. */
  function FindByStudentId(t: Table, studentId: string): (r: Option<User>)
    requires Valid(t)
    ensures r.None? <==> !StudentIdTaken(t, studentId)
    ensures r.Some? ==> r.value.studentId == studentId && r.value.id in t && RowOf(r.value) == t[r.value.id]
  {
    if StudentIdTaken(t, studentId) then
      var id :| id in t && t[id].studentId == studentId;
      Some(MapToEntity(t[id]))
    else None
  }

  /** The data `create` receives. `role` and `verified` may be missing;
      `emailAlerts` stands for `preferences?.emailAlerts`, missing when
      either step of that chain is. */
  datatype NewUser = NewUser(
    email: string,
    passwordHash: string,
    fullName: string,
    studentId: string,
    role: Option<string>,
    verified: Option<bool>,
    emailAlerts: Option<bool>)

  /** The row `create` inserts, with the defaults for falsy or missing fields. */
  function NewRow(data: NewUser, newId: string, now: string): (row: UserRow)
    ensures row.role == (if data.role.Some? && data.role.value != "" then data.role.value else "student")
    ensures row.verified <==> data.verified == Some(true)
    ensures row.emailAlerts == (if data.emailAlerts.Some? then data.emailAlerts.value else true)
  {
    UserRow(newId, data.email, data.passwordHash, data.fullName, data.studentId,
      if data.role.Some? && data.role.value != "" then data.role.value else "student",
      data.verified.GetOr(false),
      data.emailAlerts.GetOr(true),
      now)
  }

  /** `create`. The database generates the id (`newId`) and the creation
      time (`now`); an insert that would repeat a unique column fails. */
  function Create(t: Table, data: NewUser, newId: string, now: string): (step: Step<Table, User>)
    ensures newId in t ==> step == Step(t, Failure(UniqueViolation("id")))
    ensures newId !in t && EmailTaken(t, data.email) ==> step == Step(t, Failure(UniqueViolation("email")))
    ensures newId !in t && !EmailTaken(t, data.email) && StudentIdTaken(t, data.studentId) ==>
      step == Step(t, Failure(UniqueViolation("studentId")))
    ensures step.reply.Success? <==>
      newId !in t && !EmailTaken(t, data.email) && !StudentIdTaken(t, data.studentId)
    ensures step.reply.Success? ==>
      var u := step.reply.value;
      && step.state == t[newId := RowOf(u)]
      && u.id == newId && u.createdAt == now
      && u.email == data.email && u.passwordHash == data.passwordHash
      && u.fullName == data.fullName && u.studentId == data.studentId
      && RowOf(u) == NewRow(data, newId, now)
  {
    if newId in t then Step(t, Failure(UniqueViolation("id")))
    else if EmailTaken(t, data.email) then Step(t, Failure(UniqueViolation("email")))
    else if StudentIdTaken(t, data.studentId) then Step(t, Failure(UniqueViolation("studentId")))
    else
      var row := NewRow(data, newId, now);
      Step(t[newId := row], Success(MapToEntity(row)))
  }

  /** The request body of `update`: three optional fields. */
  datatype UpdateUserDto = UpdateUserDto(email: Option<string>, fullName: Option<string>, emailAlerts: Option<bool>)

  /** A present, non-empty string: what `&&` and `if` treat as true. */
  predicate Truthy(s: Option<string>) {
    s.Some? && s.value != ""
  }

  function NotFoundError(id: string): Error {
    NotFound("User with id " + id + " not found")
  }

  const EmailConflict: Error := Conflict("Email already registered")

  /** The e-mail change `update` refuses: a truthy address that differs from
      the user's own and belongs to a row already. */
  predicate RefusedEmail(t: Table, id: string, dto: UpdateUserDto)
    requires id in t
  {
    Truthy(dto.email) && dto.email.value != t[id].email && EmailTaken(t, dto.email.value)
  }

  /** `update`. */
  function Update(t: Table, id: string, dto: UpdateUserDto): (step: Step<Table, User>)
    ensures id !in t ==> step == Step(t, Failure(NotFoundError(id)))
    ensures id in t && RefusedEmail(t, id, dto) ==> step == Step(t, Failure(EmailConflict))
    ensures id in t && !RefusedEmail(t, id, dto) ==>
      && step.state.Keys == t.Keys
      && (forall other :: other in t && other != id ==> step.state[other] == t[other])
      && step.reply == Success(MapToEntity(step.state[id]))
      && step.state[id].email == (if Truthy(dto.email) then dto.email.value else t[id].email)
      && step.state[id].fullName == (if Truthy(dto.fullName) then dto.fullName.value else t[id].fullName)
      && step.state[id].emailAlerts == (if dto.emailAlerts.Some? then dto.emailAlerts.value else t[id].emailAlerts)
      && step.state[id].id == t[id].id
      && step.state[id].passwordHash == t[id].passwordHash
      && step.state[id].studentId == t[id].studentId
      && step.state[id].role == t[id].role
      && step.state[id].verified == t[id].verified
      && step.state[id].createdAt == t[id].createdAt
  {
    if id !in t then Step(t, Failure(NotFoundError(id)))
    else if RefusedEmail(t, id, dto) then Step(t, Failure(EmailConflict))
    else
      var existing := t[id];
      var row := existing.(
        email := if Truthy(dto.email) then dto.email.value else existing.email,
        fullName := if Truthy(dto.fullName) then dto.fullName.value else existing.fullName,
        emailAlerts := if dto.emailAlerts.Some? then dto.emailAlerts.value else existing.emailAlerts);
      Step(t[id := row], Success(MapToEntity(row)))
  }

  /* -------------------------------------------------------- properties */

  /** Re-submitting the user's own e-mail is never a conflict. */
  lemma OwnEmailNoConflict(t: Table, id: string, dto: UpdateUserDto)
    requires id in t && dto.email == Some(t[id].email)
    ensures Update(t, id, dto).reply.Success?
  {
  }

  /** `update` keeps the table valid: the id column is untouched and a new
      e-mail is one no row holds. */
  lemma UpdatePreservesValid(t: Table, id: string, dto: UpdateUserDto)
    requires Valid(t)
    ensures Valid(Update(t, id, dto).state)
  {
    if id in t && !RefusedEmail(t, id, dto) {
      var s := Update(t, id, dto).state;
      forall a, b | a in s && b in s && s[a].email == s[b].email
        ensures a == b
      {
        if a != b && (a == id || b == id) && Truthy(dto.email) && dto.email.value != t[id].email {
          var other := if a == id then b else a;
          assert t[other].email == dto.email.value;
          assert EmailTaken(t, dto.email.value);
        }
      }
    }
  }

  /** `create` keeps the table valid: it inserts only when no unique column
      repeats. */
  lemma CreatePreservesValid(t: Table, data: NewUser, newId: string, now: string)
    requires Valid(t)
    ensures Valid(Create(t, data, newId, now).state)
  {
    var step := Create(t, data, newId, now);
    if step.reply.Success? {
      assert forall o :: o in t ==> t[o].email != data.email && t[o].studentId != data.studentId;
    }
  }

  /** A created user is found again by id, e-mail and student id. */
  lemma CreateThenFind(t: Table, data: NewUser, newId: string, now: string)
    requires Valid(t)
    requires Create(t, data, newId, now).reply.Success?
    ensures var step := Create(t, data, newId, now);
      && Valid(step.state)
      && FindById(step.state, newId) == Some(step.reply.value)
      && FindByEmail(step.state, data.email) == Some(step.reply.value)
      && FindByStudentId(step.state, data.studentId) == Some(step.reply.value)
  {
    var step := Create(t, data, newId, now);
    CreatePreservesValid(t, data, newId, now);
    assert step.state[newId].email == data.email;
    assert step.state[newId].studentId == data.studentId;
  }

  /** The reply of a successful `update` is what `findById` returns after it. */
  lemma UpdateThenFindById(t: Table, id: string, dto: UpdateUserDto)
    requires Update(t, id, dto).reply.Success?
    ensures var step := Update(t, id, dto);
      FindById(step.state, id) == Some(step.reply.value)
  {
  }
}

=== FILE: word_wrap.dfy ===
/** The greedy word wrap of the jsPDF transcript export (`splitText`) and the
    line count of `addVietnameseText`. The width of a rendered string is the
    document's font metric, an arbitrary function here. */
module WordWrap {
  import opened Common

  function Max(a: int, b: int): int {
    if a < b then b else a
  }

  /** `s.split(' ')`: the pieces between single spaces, empty pieces included. */
  function SplitSpaces(s: string): (ws: seq<string>)
    ensures |ws| >= 1
    ensures forall i :: 0 <= i < |ws| ==> ' ' !in ws[i]
    decreases |s|
  {
    if |s| == 0 then [""]
    else
      var rest := SplitSpaces(s[1..]);
      if s[0] == ' ' then [""] + rest
      else [[s[0]] + rest[0]] + rest[1..]
  }

  /** `ws.join(' ')`. */
  function JoinSpaces(ws: seq<string>): string
    decreases |ws|
  {
    if |ws| == 0 then ""
    else if |ws| == 1 then ws[0]
    else ws[0] + " " + JoinSpaces(ws[1..])
  }

  /** Splitting at spaces and joining with spaces gives the text back. */
  lemma {:induction false} JoinSplitSpaces(s: string)
    ensures JoinSpaces(SplitSpaces(s)) == s
    decreases |s|
  {
    if |s| > 0 {
      var rest := SplitSpaces(s[1..]);
      JoinSplitSpaces(s[1..]);
      if s[0] == ' ' {
        assert ([""] + rest)[1..] == rest;
      } else if |rest| > 1 {
        var ws := [[s[0]] + rest[0]] + rest[1..];
        assert ws[1..] == rest[1..];
        assert JoinSpaces(rest) == rest[0] + " " + JoinSpaces(rest[1..]);
      }
    }
  }

  /** Joining two neighbouring lines with a space is the same as listing them. */
  lemma {:induction false} JoinMerge(a: seq<string>, x: string, y: string, b: seq<string>)
    ensures JoinSpaces(a + [x + " " + y] + b) == JoinSpaces(a + [x, y] + b)
    decreases |a|
  {
    if |a| == 0 {
      assert [x + " " + y] + b == [x + " " + y] + b;
      if |b| > 0 {
        assert ([x + " " + y] + b)[1..] == b;
        assert ([x, y] + b)[1..] == [y] + b;
        assert ([y] + b)[1..] == b;
      } else {
        assert ([x, y])[1..] == [y];
      }
    } else {
      assert (a + [x + " " + y] + b)[1..] == a[1..] + [x + " " + y] + b;
      assert (a + [x, y] + b)[1..] == a[1..] + [x, y] + b;
      JoinMerge(a[1..], x, y, b);
    }
  }

  /** Splitting at the space that joins two texts splits each of them. */
  lemma {:induction false} SplitSpacesAppend(a: string, b: string)
    ensures SplitSpaces(a + " " + b) == SplitSpaces(a) + SplitSpaces(b)
    decreases |a|
  {
    if |a| == 0 {
      assert a + " " + b == " " + b;
      assert (" " + b)[1..] == b;
    } else {
      var t := a + " " + b;
      assert t[0] == a[0] && t[1..] == a[1..] + " " + b;
      SplitSpacesAppend(a[1..], b);
    }
  }

  /** A text without a space is a single piece. */
  lemma {:induction false} SplitSpacesWord(w: string)
    requires ' ' !in w
    ensures SplitSpaces(w) == [w]
    decreases |w|
  {
    if |w| > 0 {
      assert ' ' !in w[1..] by {
        forall k | 0 <= k < |w[1..]| ensures w[1..][k] != ' ' {
          assert w[1..][k] == w[k + 1];
        }
      }
      SplitSpacesWord(w[1..]);
      assert [w[0]] + w[1..] == w;
    }
  }

  /** Joining one more piece adds a space and the piece. */
  lemma {:induction false} JoinSpacesSnoc(ws: seq<string>, w: string)
    requires |ws| >= 1
    ensures JoinSpaces(ws + [w]) == JoinSpaces(ws) + " " + w
    decreases |ws|
  {
    if |ws| > 1 {
      assert (ws + [w])[1..] == ws[1..] + [w];
      JoinSpacesSnoc(ws[1..], w);
    } else {
      assert (ws + [w])[1..] == [w];
    }
  }

  /** A line either fits the width or holds a single word (a word being a
      piece of `text.split(' ')`, it holds no space). */
  predicate LineOk(width: string -> real, maxWidth: real, line: string) {
    width(line) <= maxWidth || ' ' !in line
  }

  predicate AllLinesOk(width: string -> real, maxWidth: real, lines: seq<string>) {
    forall i :: 0 <= i < |lines| ==> LineOk(width, maxWidth, lines[i])
  }

  /** A line was broken only because its next word did not fit: each line,
      extended by a space and the first word of the line after it, is wider
      than the limit. */
  predicate BreaksOnOverflow(width: string -> real, maxWidth: real, ls: seq<string>) {
    forall i :: 0 <= i < |ls| - 1 ==> width(ls[i] + " " + SplitSpaces(ls[i + 1])[0]) > maxWidth
  }

  /** A word was joined to a line only because the result fit: every prefix
      of two or more of the line's words is within the limit. */
  predicate JoinsFit(width: string -> real, maxWidth: real, line: string) {
    forall j :: 1 < j <= |SplitSpaces(line)| ==> width(JoinSpaces(SplitSpaces(line)[..j])) <= maxWidth
  }

  predicate AllJoinsFit(width: string -> real, maxWidth: real, lines: seq<string>) {
    forall i :: 0 <= i < |lines| ==> JoinsFit(width, maxWidth, lines[i])
  }

  /** `[current]` when `current` is truthy, `[]` otherwise. */
  function Pending(current: string): seq<string> {
    if current != "" then [current] else []
  }

  /** The `words.forEach` loop from the state (`lines`, `currentLine`), followed
      by the final push of a non-empty current line. */
  function Wrap(width: string -> real, maxWidth: real, words: seq<string>, lines: seq<string>, current: string): (r: seq<string>)
    ensures |lines| <= |r| && r[..|lines|] == lines
    decreases |words|
  {
    if |words| == 0 then lines + Pending(current)
    else
      var word := words[0];
      var test := if current != "" then current + " " + word else word;
      if width(test) > maxWidth && current != "" then
        Wrap(width, maxWidth, words[1..], lines + [current], word)
      else
        Wrap(width, maxWidth, words[1..], lines, test)
  }

  lemma {:induction false} WrapLinesOk(width: string -> real, maxWidth: real, words: seq<string>, lines: seq<string>, current: string)
    requires forall i :: 0 <= i < |words| ==> ' ' !in words[i]
    requires AllLinesOk(width, maxWidth, lines)
    requires LineOk(width, maxWidth, current)
    ensures AllLinesOk(width, maxWidth, Wrap(width, maxWidth, words, lines, current))
    decreases |words|
  {
    if |words| > 0 {
      var word := words[0];
      var test := if current != "" then current + " " + word else word;
      if width(test) > maxWidth && current != "" {
        assert Wrap(width, maxWidth, words, lines, current) == Wrap(width, maxWidth, words[1..], lines + [current], word);
        assert LineOk(width, maxWidth, word);
        WrapLinesOk(width, maxWidth, words[1..], lines + [current], word);
      } else {
        assert Wrap(width, maxWidth, words, lines, current) == Wrap(width, maxWidth, words[1..], lines, test);
        assert current == "" ==> test == word;
        assert LineOk(width, maxWidth, test);
        WrapLinesOk(width, maxWidth, words[1..], lines, test);
      }
    }
  }

  lemma {:induction false} WrapCount(width: string -> real, maxWidth: real, words: seq<string>, lines: seq<string>, current: string)
    ensures |Wrap(width, maxWidth, words, lines, current)| <= |lines| + |Pending(current)| + |words|
    decreases |words|
  {
    if |words| > 0 {
      var word := words[0];
      var test := if current != "" then current + " " + word else word;
      if width(test) > maxWidth && current != "" {
        WrapCount(width, maxWidth, words[1..], lines + [current], word);
      } else {
        WrapCount(width, maxWidth, words[1..], lines, test);
      }
    }
  }

  /** Every break of the wrap is forced: the word that starts a new line
      would have made the previous one too wide. */
  lemma {:induction false} WrapBreaks(width: string -> real, maxWidth: real, words: seq<string>, lines: seq<string>, current: string)
    requires forall i :: 0 <= i < |words| ==> words[i] != "" && ' ' !in words[i]
    requires BreaksOnOverflow(width, maxWidth, lines)
    requires lines != [] ==> current != "" && width(lines[|lines| - 1] + " " + SplitSpaces(current)[0]) > maxWidth
    ensures BreaksOnOverflow(width, maxWidth, Wrap(width, maxWidth, words, lines, current))
    decreases |words|
  {
    if |words| == 0 {
      var r := lines + Pending(current);
      forall i | 0 <= i < |r| - 1
        ensures width(r[i] + " " + SplitSpaces(r[i + 1])[0]) > maxWidth
      {
        if i + 1 == |lines| {
          assert r[i] == lines[|lines| - 1] && r[i + 1] == current;
        } else {
          assert r[i] == lines[i] && r[i + 1] == lines[i + 1];
        }
      }
    } else {
      var word := words[0];
      var test := if current != "" then current + " " + word else word;
      if width(test) > maxWidth && current != "" {
        var ls := lines + [current];
        forall i | 0 <= i < |ls| - 1
          ensures width(ls[i] + " " + SplitSpaces(ls[i + 1])[0]) > maxWidth
        {
          if i + 1 == |lines| {
            assert ls[i] == lines[|lines| - 1] && ls[i + 1] == current;
          } else {
            assert ls[i] == lines[i] && ls[i + 1] == lines[i + 1];
          }
        }
        SplitSpacesWord(word);
        WrapBreaks(width, maxWidth, words[1..], ls, word);
      } else {
        if current != "" {
          SplitSpacesAppend(current, word);
          assert SplitSpaces(test)[0] == SplitSpaces(current)[0];
        }
        WrapBreaks(width, maxWidth, words[1..], lines, test);
      }
    }
  }

  /** Extending a line by a word that fits keeps every join of the line within
      the limit. */
  lemma JoinsFitExtend(width: string -> real, maxWidth: real, current: string, word: string)
    requires ' ' !in word && current != ""
    requires JoinsFit(width, maxWidth, current)
    requires width(current + " " + word) <= maxWidth
    ensures JoinsFit(width, maxWidth, current + " " + word)
  {
    var cs := SplitSpaces(current);
    SplitSpacesAppend(current, word);
    SplitSpacesWord(word);
    var ts := SplitSpaces(current + " " + word);
    assert ts == cs + [word];
    forall j | 1 < j <= |ts| ensures width(JoinSpaces(ts[..j])) <= maxWidth {
      if j <= |cs| {
        assert ts[..j] == cs[..j];
      } else {
        assert ts[..j] == cs + [word];
        JoinSpacesSnoc(cs, word);
        JoinSplitSpaces(current);
      }
    }
  }

  /** Every join of the wrap is allowed: each line grew one word at a time,
      and each growth stayed within the limit. */
  lemma {:induction false} WrapJoinsFit(width: string -> real, maxWidth: real, words: seq<string>, lines: seq<string>, current: string)
    requires forall i :: 0 <= i < |words| ==> ' ' !in words[i]
    requires AllJoinsFit(width, maxWidth, lines)
    requires JoinsFit(width, maxWidth, current)
    ensures AllJoinsFit(width, maxWidth, Wrap(width, maxWidth, words, lines, current))
    decreases |words|
  {
    if |words| == 0 {
      var r := lines + Pending(current);
      assert forall i :: |lines| <= i < |r| ==> r[i] == current;
    } else {
      var word := words[0];
      SplitSpacesWord(word);
      assert JoinsFit(width, maxWidth, word);
      var test := if current != "" then current + " " + word else word;
      if width(test) > maxWidth && current != "" {
        var ls := lines + [current];
        assert forall i :: 0 <= i < |ls| ==> ls[i] == if i < |lines| then lines[i] else current;
        WrapJoinsFit(width, maxWidth, words[1..], ls, word);
      } else {
        if current != "" {
          JoinsFitExtend(width, maxWidth, current, word);
        }
        WrapJoinsFit(width, maxWidth, words[1..], lines, test);
      }
    }
  }

  /** Moving a word onto the pending line does not change the joined text. */
  lemma ExtendPendingJoin(lines: seq<string>, current: string, word: string, rest: seq<string>)
    requires current != ""
    ensures JoinSpaces(lines + Pending(current + " " + word) + rest) == JoinSpaces(lines + Pending(current) + ([word] + rest))
  {
    assert lines + Pending(current + " " + word) + rest == lines + [current + " " + word] + rest;
    JoinMerge(lines, current, word, rest);
    assert lines + [current, word] + rest == lines + Pending(current) + ([word] + rest);
  }

  lemma {:induction false} WrapJoin(width: string -> real, maxWidth: real, words: seq<string>, lines: seq<string>, current: string)
    requires forall i :: 0 <= i < |words| ==> words[i] != ""
    requires current != "" || lines == []
    ensures JoinSpaces(Wrap(width, maxWidth, words, lines, current)) == JoinSpaces(lines + Pending(current) + words)
    decreases |words|
  {
    if |words| == 0 {
      assert lines + Pending(current) + words == lines + Pending(current);
    } else {
      var word, rest := words[0], words[1..];
      assert words == [word] + rest;
      var test := if current != "" then current + " " + word else word;
      if width(test) > maxWidth && current != "" {
        WrapJoin(width, maxWidth, rest, lines + [current], word);
        assert lines + [current] + Pending(word) + rest == lines + Pending(current) + words;
      } else {
        WrapJoin(width, maxWidth, rest, lines, test);
        if current != "" {
          ExtendPendingJoin(lines, current, word, rest);
        } else {
          assert lines + Pending(test) + rest == lines + Pending(current) + ([word] + rest);
        }
      }
    }
  }

  /** `splitText(doc, text, maxWidth)`. */
  function SplitText(width: string -> real, text: string, maxWidth: real): (lines: seq<string>)
    ensures |lines| >= 1
    ensures text == "" ==> lines == [""]
    ensures AllLinesOk(width, maxWidth, lines)
    ensures |lines| <= Max(1, |SplitSpaces(text)|)
    ensures (forall i :: 0 <= i < |SplitSpaces(text)| ==> SplitSpaces(text)[i] != "") ==> JoinSpaces(lines) == text
    ensures (forall i :: 0 <= i < |SplitSpaces(text)| ==> SplitSpaces(text)[i] != "") ==> BreaksOnOverflow(width, maxWidth, lines)
    ensures AllJoinsFit(width, maxWidth, lines)
  {
    if text == "" then
      assert SplitSpaces("") == [""];
      [""]
    else
      var words := SplitSpaces(text);
      var lines := Wrap(width, maxWidth, words, [], "");
      WrapLinesOk(width, maxWidth, words, [], "");
      WrapCount(width, maxWidth, words, [], "");
      assert SplitSpaces("") == [""];
      WrapJoinsFit(width, maxWidth, words, [], "");
      if forall i :: 0 <= i < |words| ==> words[i] != "" then
        WrapBreaks(width, maxWidth, words, [], "");
        WrapJoin(width, maxWidth, words, [], "");
        JoinSplitSpaces(text);
        assert [] + Pending("") + words == words;
        lines
      else if |lines| > 0 then lines
      else [""]
  }

  /** `options?.maxWidth || (pageWidth - x - 10)`. */
  function EffectiveMaxWidth(optionMax: Option<real>, pageWidth: real, x: real): (w: real)
    ensures optionMax.Some? && optionMax.value != 0.0 ==> w == optionMax.value
    ensures optionMax.None? || optionMax.value == 0.0 ==> w == pageWidth - x - 10.0
  {
    if optionMax.Some? && optionMax.value != 0.0 then optionMax.value else pageWidth - x - 10.0
  }

  /** The number of lines `addVietnameseText` writes and returns. An empty
      text writes "N/A" on one line; `measureFails` stands for the width
      metric throwing, after which the text is written unwrapped on one line. */
  function AddTextLineCount(width: string -> real, text: string, x: real, optionMax: Option<real>,
                            pageWidth: real, measureFails: bool): (n: nat)
    ensures 1 <= n <= Max(1, |SplitSpaces(text)|)
    ensures text == "" || measureFails ==> n == 1
    ensures text != "" && !measureFails ==>
      n == |SplitText(width, text, EffectiveMaxWidth(optionMax, pageWidth, x))|
  {
    if text == "" then 1
    else if measureFails then 1
    else |SplitText(width, text, EffectiveMaxWidth(optionMax, pageWidth, x))|
  }
}
